=== FILE: README.md ===
# Coachbar backend: a Dafny model of the request handlers

This project models the product and user catalogue backend: an Express
application over two Mongoose collections, products and users, and an upload
directory `public/uploads` that holds product logos and profile pictures.
The model covers the following parts of the backend.

- **Product schema** (`ProductModel`): the product document and the rules that
  `save()` enforces. The name and SKU are required, `source` is `"ADMIN"` or
  `"USER"`, and the SKU is unique. These rules are a collection invariant, and
  every handler is proved to preserve it.
- **Authorization gates** (`AuthMiddleware`): `authMiddleware` and
  `authAdminMiddleware` are decisions over the `Authorization` header, the
  token verifier and the role. The decision is 401, 400, 403, or proceed with
  the decoded claims.
- **Product handlers**: create, list, get by id, update, delete, assign and
  categories. `ProductDirectory` defines each one as a function from the state
  before a request to the reply and the state after it. The four handlers that
  change state are also methods on a mutable database object
  (`ProductController`), and those methods are proved to follow the functions.
- **User handlers**: register, login, list, profile picture upload,
  self-update, current user and password change. They are modelled the same
  way, in `UserDirectory` and `UserController`.
- **Route tables** (`ProductRoutes`, `UserRoutes`, built on `Pipeline`). Each
  route is an ordered list of middleware stages: authentication, multer's
  single-file upload, `compressImage`, and express-validator chains. The list
  ends in a handler, and any stage can answer first. `Serve` is one request
  end to end. `HandleRequest` is the same request over the database object.

Code the model cannot see becomes a parameter:

- `JSON.parse`, the `$regex` match, `isEmail`, bcrypt and jsonwebtoken are
  fields of `Services`;
- the orders in which MongoDB enumerates a collection, the file name
  `compressImage` picks from the clock, the id a new document gets, and
  whether a user document passes its schema are fields of `Env`.

Where bcrypt or jsonwebtoken must behave as documented, a lemma says so in its
hypothesis (`HashSound`, `TokenSound`).

The handlers are modelled as written, defects included. Lemmas expose the
following defects:

- An update with a new logo but no `assignedTo` field fails in `JSON.parse`.
  By then the old logo has already been deleted, and the document still names
  it (`UpdateParseFailureLeavesDanglingLogo`).
- An update of an unknown id answers 404 but keeps the logo that
  `compressImage` already stored (`UpdateNotFoundKeepsNewUpload`).
- Deleting a product whose logo file is missing fails with 500, and the
  document stays (`ProductDirectory.Delete`).
- Without a `limit` parameter, a product page holds 5 documents, not all of
  them (`DefaultLimitIsFive`).
- The validators of the product update route and the user update route are
  declared but never read (`UpdateIgnoresValidators`,
  `UpdateNameNotEnforced`).
- Any signed-in user may read, update or delete any product: the
  by-id routes check the token but neither the role nor the assignment
  (`ById`, `UpdateIgnoresValidators`, `AnyUserDeletesAnyProduct`).
- `getProductById` answers 200 with `null` for an unknown id (`ById`).
- A failed profile save leaves the user naming a deleted picture
  (`FailedProfileSaveLeavesDanglingPicture`).
- `getUsers` does not clamp `page`, so a page below 1 with a limit is refused
  with 500 (`ListUsers`).
- `updatePassword` is written but no route reaches it
  (`NoRequestChangesPasswords`).
- The login reply carries the whole user document, password hash included
  (`Login`).

## Model

| member | source | states |
|---|---|---|
| ProductModel.SkusUnique | models/Product.js:5 | In a valid collection, two different documents never share a SKU. |
| ProductModel.SavePreservesValid | models/Product.js:3-11 | Saving a document that passes the schema checks keeps the collection valid. The checks are: name and SKU present, source in the enum, SKU unique. |
| ProductModel.RemovePreservesValid | models/Product.js:3-11 | Removing a document keeps the collection valid. |
| AuthMiddleware.Authenticate | middlewares/authMiddleware.js:3-15 | A missing or empty header gives 401 "Access denied". A header whose second space-separated part does not verify gives 400 "Invalid token". Otherwise the request proceeds with exactly the decoded claims, whatever the role. |
| AuthMiddleware.AuthenticateAdmin | middlewares/authMiddleware.js:17-29 | 401 and 400 as above. A verified non-admin token gives 403 "Access denied" and no user is attached. The request proceeds if and only if the token verifies with role "admin". |
| AuthMiddleware.AdminGateIsGatePlusRole | middlewares/authMiddleware.js:3-29 | The admin gate decides exactly as the plain gate, except that a verified non-admin is turned away with 403. |
| AuthMiddleware.SplitAtOneSpace | middlewares/authMiddleware.js:6 | `split(" ")` of two space-free words joined by one space gives exactly those two words. |
| AuthMiddleware.BearerTokenOf | middlewares/authMiddleware.js:6 | The token used is the part after the scheme: for `"<scheme> <t>"` it is `t`. |
| AuthMiddleware.SignedTokenAdmitted | middlewares/authMiddleware.js:6-10 | Under the jsonwebtoken contract, `Authorization: Bearer <signed token>` is admitted with exactly the signed claims. |
| Validation.Errors | routes/productRoutes.js:16-19 | The recorded messages are empty if and only if every chain passes. There are at most as many messages as chains, and each message belongs to a failing chain. |
| Validation.ErrorsInOrder | routes/productRoutes.js:16-19 | The messages are exactly those of the failing chains, one per failing chain, in declaration order: message k is the message of the k-th failing chain. |
| Validation.ErrorsComplete | routes/productRoutes.js:16-19 | No failing chain is dropped: the message of every failing chain is in the reply. |
| Sequences.Reverse | controllers/productController.js:58 | The reversal has the same length, and element i is element `n-1-i` of the input. |
| Sequences.ReverseEnumerates | controllers/productController.js:76 | Sorting in the opposite direction still lists every document exactly once. |
| Sequences.Window | controllers/productController.js:77-78 | `skip(s).limit(l)`: element i of the window is element `s+i` of the input. The window holds `l` elements, or all that remain when `l` is 0 or fewer than `l` are left. |
| Sequences.Arranged | controllers/productController.js:58 | Only the exact string "desc" reverses the ascending order; any other value keeps it. |
| Sequences.ArrangedEnumerates | controllers/productController.js:76 | The sorted query result, in either direction, lists every document exactly once. |
| Sequences.EnumerationLength | controllers/userController.js:73-74 | A duplicate-free listing of a collection has exactly as many entries as the collection has documents. |
| ProductDirectory.Create | controllers/productController.js:15-50 | Every rejection (400 validation, 400 duplicate SKU, 500 on a bad or missing `assignedTo` or a failed save) adds no document and unlinks the stored upload. 400 happens if and only if validation failed, or `assignedTo` is present and parses and the SKU is taken (when `assignedTo` is missing or malformed, the parse throws first and the reply is 500 whatever the SKU). 201 happens if and only if there are no validation errors, `assignedTo` parses and casts, the SKU is free, the new id is unused and the new document passes the schema. On 201 exactly one new document is added, and it is `Draft` of the body: name, SKU, description and category from the body, source "ADMIN" if and only if the creator is an admin, logo the stored file or `""`, and `assignedTo` the parsed list, or `[creator id]` when the parse gives a falsy value. |
| ProductDirectory.Draft | controllers/productController.js:34-42 | The new document takes name, SKU, description and category from the body (a missing name or SKU as `""`), the logo from the stored file or `""`, source "ADMIN" for an admin and "USER" otherwise, and the given `assignedTo`. |
| ProductDirectory.CreatePreservesValid | controllers/productController.js:34-44 | Create keeps the product collection valid. |
| ProductDirectory.Revised | controllers/productController.js:135-141 | Each of name, SKU, category and source takes the supplied value when it is truthy and keeps the old one otherwise. A new upload replaces the logo. `assignedTo` changes only to a parsed list. The description is never touched. |
| ProductDirectory.Update | controllers/productController.js:125-151 | An unknown id gives 404 with nothing changed. 200 happens if and only if the id exists, `assignedTo` parses and casts, and the revised document passes the schema. On 200 only that document changes, to its revised form, and the old logo is unlinked when a new file came and the old one is set and exists. On 500 the products are unchanged, the old logo is already gone, and the new upload is unlinked. |
| ProductDirectory.UpdatePreservesValid | controllers/productController.js:137-144 | Update keeps the product collection valid. |
| ProductDirectory.UpdateParseFailureLeavesDanglingLogo | controllers/productController.js:130-141 | With a new logo and no `assignedTo`, the reply is 500. The document still names its old logo, which is no longer in the upload directory. |
| ProductDirectory.UpdateNotFoundKeepsNewUpload | controllers/productController.js:127-128 | When no document names the new upload, an update of an unknown id answers 404, the upload stays in the directory, and still no document names it. |
| ProductDirectory.Delete | controllers/productController.js:153-166 | An unknown id gives 404. A logo that is set but missing gives 500, and nothing changes. Otherwise (200, if and only if the id exists and its logo is empty or present) the logo is unlinked and exactly that document is removed. |
| ProductDirectory.DeletePreservesValid | controllers/productController.js:160 | Delete keeps the product collection valid. |
| ProductDirectory.Assign | controllers/productController.js:88-114 | Validation errors give 400, a missing product or user gives 404, and a list that does not cast to ObjectIds makes the save reject with 500. Nothing changes in any of these cases. 201 happens if and only if there are no validation errors, both documents exist and the list casts. On 201 `assignedTo` of that product is replaced wholesale by the given list. |
| ProductDirectory.AssignPreservesValid | controllers/productController.js:106-108 | Assign keeps the product collection valid. |
| ProductDirectory.PageNumber | controllers/productController.js:56 | The page is at least 1. It equals the given page when that page is at least 1, and is 1 when the page is absent or below 1. |
| ProductDirectory.Filtered | controllers/productController.js:72-78 | The result holds exactly the documents of the enumeration that match the filter and are visible to the caller. |
| ProductDirectory.FilteredInOrder | controllers/productController.js:75-76 | The filtered ids sit in the enumeration at strictly increasing positions, so the query keeps the sort order. |
| ProductDirectory.List | controllers/productController.js:52-86 | The reply is 200. `total` is the number of matching documents visible to the caller, and every id on the page is one of them. |
| ProductDirectory.NonAdminSeesOnlyAssigned | controllers/productController.js:72-74 | A non-admin caller only receives products whose `assignedTo` contains the caller's id, whatever search, category or source is given. |
| ProductDirectory.TotalIgnoresWindow | controllers/productController.js:80 | `total` is the same for any page, limit and sort direction. |
| ProductDirectory.FilteredCount | controllers/productController.js:75-80 | Filtering a duplicate-free enumeration yields as many ids as the enumeration holds matching documents. |
| ProductDirectory.EveryMatchFiltered | controllers/productController.js:75-80 | Filtering an enumeration of the whole collection yields exactly `total` ids. |
| ProductDirectory.MatchesInOrder | controllers/productController.js:72-80 | The matching documents in the requested sort order are a subsequence of that order, each document once, and there are `total` of them. |
| ProductDirectory.PageIsWindow | controllers/productController.js:56-78 | Every page, with `skip = (page - 1) * limit`, is cut from the matching documents in sort order. It has no entries when `skip` reaches `total`, all the rest when the limit is 0 or fewer than `limit` remain, and `limit` entries otherwise. Entry i is the match at position `skip + i`. |
| ProductDirectory.UnlimitedPageIsEverything | controllers/productController.js:57 | With limit 0 or an unreadable limit, the page is every matching document in the requested order, and its length is `total`. |
| ProductDirectory.SecondPageOfFive | controllers/productController.js:77-78 | `page=2&limit=5` gives the 6th to the 10th matching document, or fewer when fewer exist. |
| ProductDirectory.DefaultLimitIsFive | controllers/productController.js:54-57 | Without a `limit` parameter and with more than 5 matches, the first page holds 5 documents and `total` is larger. |
| ProductDirectory.ById | controllers/productController.js:116-123 | The reply is always 200. It carries the stored document, or `null` if and only if the id is unknown. |
| ProductDirectory.Categories | controllers/productController.js:168-175 | A category is listed if and only if some product has it. |
| ProductController.RemoveUpload | controllers/productController.js:19 | The current upload, if any, is removed from the directory. |
| ProductController.CreateProduct | controllers/productController.js:15-50 | The step-by-step handler ends in the reply and state `ProductDirectory.Create` gives, and keeps the collection valid. |
| ProductController.UpdateProduct | controllers/productController.js:125-151 | The step-by-step handler ends in the reply and state `ProductDirectory.Update` gives, and keeps the collection valid. |
| ProductController.AssignProduct | controllers/productController.js:88-114 | The step-by-step handler ends in the reply and state `ProductDirectory.Assign` gives, and keeps the collection valid. |
| ProductController.DeleteProduct | controllers/productController.js:153-166 | The step-by-step handler ends in the reply and state `ProductDirectory.Delete` gives, and keeps the collection valid. |
| UserModel.View | controllers/userController.js:67 | The public view has every field of the user except the password hash. |
| UserModel.FindOne | controllers/userController.js:26 | `findOne({ email })` returns the first user in natural order that the filter selects, or nothing if and only if none is selected. A missing email selects every user. |
| UserModel.FoundIsOwner | controllers/userController.js:48 | With unique emails, looking up a user's email finds that user. |
| UserDirectory.Newcomer | controllers/userController.js:29-30 | The new user stores the given name, email and role, the hash of the password, and no profile picture. |
| UserDirectory.Register | controllers/userController.js:17-37 | Validation errors give 400. Otherwise "User already exists" is given if and only if a user with that email exists. A missing password gives 500. 201 happens if and only if there are no validation errors, the email is unknown, a password is given, the new id is unused and the schema accepts the document. Any reply other than 201 leaves the state unchanged. On 201 exactly one user with a fresh id and a new email is added, storing `hash(password)`. |
| UserDirectory.RegisterPreservesValid | controllers/userController.js:26-32 | Registration keeps emails unique. |
| UserDirectory.Login | controllers/userController.js:39-60 | Without validation errors, every 400 is the same "Invalid credentials", and an unknown email gets it. A 500 happens only without a password. A 200 means some user with that email accepts the password, and the reply is a token for that user's `{id, role}` plus the whole user document, hash included. |
| UserDirectory.LoginIffPasswordMatches | controllers/userController.js:48-56 | An existing user's email logs in if and only if bcrypt accepts the password against that user's hash. The reply is then that user's token and document. |
| UserDirectory.LoginTokenAuthenticates | controllers/userController.js:54-56 | Under the jsonwebtoken contract, the token a login returns is admitted by `authMiddleware` as the logged-in user with that user's role. |
| UserDirectory.RegisteredUserCanLogIn | controllers/userController.js:17-60 | Under the bcrypt contract, a just-registered user logs in with the registration email and password, under the new id and the given role. |
| UserDirectory.Views | controllers/userController.js:67 | `.select("-password")` maps each listed user to its public view, in order. |
| UserDirectory.SkipSign | controllers/userController.js:70 | The skip `(page-1)*limit` is negative exactly for a positive limit and a page below 1. |
| UserDirectory.ListUsers | controllers/userController.js:62-79 | The reply is 500 if and only if the limit is unreadable, or positive with a page below 1. On 200 `total` is the number of all users, and each entry is the public view of a stored user. |
| UserDirectory.EveryUserListed | controllers/userController.js:69-75 | Without a `limit` parameter, every user is listed and the list length equals `total`. |
| UserDirectory.UserPageIsWindow | controllers/userController.js:69-75 | With a numeric limit and a skip `(page - 1) * limit` that is not negative, the reply is 200. The page has no entries when the skip reaches the number of users, all the rest when the limit is 0 or fewer remain, and `limit` entries otherwise. Entry i is the public view of the user at position `skip + i` of the requested order. |
| UserDirectory.ViewsWindow | controllers/userController.js:67-71 | A window of the public views is the views of the same window of ids, entry by entry. |
| UserDirectory.Me | controllers/userController.js:117-126 | An unknown caller gets 404. Otherwise the reply is 200 with the caller's own id, name, email, role and profile, without the hash. |
| UserDirectory.Retired | controllers/userController.js:87 | The old picture is unlinked when it is set and present, and kept otherwise. |
| UserDirectory.UploadProfile | controllers/userController.js:81-100 | An unknown caller gets 404 with nothing changed. Otherwise the old picture is unlinked first. 200 happens if and only if the caller exists, a file came and the save succeeds. On 200 only the caller's profile changes, to the new file. On 500 users are unchanged and the new upload is unlinked too. |
| UserDirectory.UploadProfilePreservesValid | controllers/userController.js:89-93 | A profile upload keeps emails unique. |
| UserDirectory.ProfileReplacesOld | controllers/userController.js:87-89 | After a successful upload, the old picture is gone and the new one is kept and recorded. |
| UserDirectory.FailedProfileSaveLeavesDanglingPicture | controllers/userController.js:87-97 | A failed save leaves the user naming a picture that is no longer in the directory. |
| UserDirectory.UpdateSelf | controllers/userController.js:102-115 | An unknown caller gets 404. 200 happens if and only if the caller exists and the save succeeds. Any reply other than 200 changes nothing. On 200 only the caller's name changes, to the supplied name when it is truthy and to the old name otherwise. |
| UserDirectory.UpdateSelfPreservesValid | controllers/userController.js:107-109 | A self-update keeps emails unique. |
| UserDirectory.ChangePassword | controllers/userController.js:128-144 | An unknown caller gets 404. The reply is 400 "Invalid old password" if and only if bcrypt rejects the old password. 200 happens if and only if the caller exists, both passwords are given, bcrypt accepts the old one and the save succeeds. Any reply other than 200 changes nothing. On 200 only the caller's hash changes, to `hash(newPassword)`. |
| UserDirectory.ChangePasswordPreservesValid | controllers/userController.js:137-138 | A password change keeps emails unique. |
| UserDirectory.NewPasswordLogsIn | controllers/userController.js:134-137 | Under the bcrypt contract, after a password change the user logs in with the new password. |
| UserController.RegisterUser | controllers/userController.js:17-37 | The step-by-step handler ends in the reply and state `UserDirectory.Register` gives, and keeps emails unique. |
| UserController.UploadProfilePicture | controllers/userController.js:81-100 | The step-by-step handler ends in the reply and state `UserDirectory.UploadProfile` gives, and keeps emails unique. |
| UserController.UpdateUser | controllers/userController.js:102-115 | The step-by-step handler ends in the reply and state `UserDirectory.UpdateSelf` gives, and keeps emails unique. |
| UserController.UpdatePassword | controllers/userController.js:128-144 | The step-by-step handler ends in the reply and state `UserDirectory.ChangePassword` gives, and keeps emails unique. |
| Pipeline.Squeeze | middlewares/uploadMiddleware.js:23-47 | No file gives 400 "Image is required". An undecodable file gives 500 "Image processing failed". Otherwise the image is stored under the chosen name and the request proceeds. |
| Pipeline.Step | routes/productRoutes.js:12-19 | A stage that answers changes no file and is never a validator. Only the compress stages add a file. An auth stage attaches the user, and the admin gate attaches only admins. |
| Pipeline.Run | routes/productRoutes.js:10-22 | Validators alone always reach the handler. When nothing can answer after a store, an answered request leaves the uploads as they were. A reached handler has the stored file, if any, added to the uploads. A user is attached if and only if a gate ran. |
| Pipeline.Resolve | routes/productRoutes.js:25-31 | The route chosen is the first one in declaration order whose verb and path pattern match. No route is chosen if and only if none matches. |
| Pipeline.ResolveFirst | routes/productRoutes.js:28-31 | A route that matches, with no earlier route matching, is the one chosen. |
| Pipeline.RunThrough | routes/productRoutes.js:10-22 | Running a stage list runs its first stage and continues with the rest only if that stage called `next()`. |
| Pipeline.OptionalUploadWithoutFile | routes/productRoutes.js:34-57 | For a signed-in request without a file, the stages auth, upload, compress-if-file and validate reach the handler with the caller and the validators' messages, and store nothing. |
| Pipeline.RequiredUploadWithImage | routes/productRoutes.js:10-22 | For a signed-in request with a decodable image in the expected field, the stages auth, upload, compress and validate store the image under the chosen name and reach the handler with the caller, the file and the validators' messages. |
| ProductRoutes.RoutesAreGuarded | routes/productRoutes.js:10-72 | Every product route starts with an auth gate, and only validators follow `compressImage`. |
| ProductRoutes.StagesAdmit | routes/productRoutes.js:10-72 | A product route's stages that reach the handler leave a caller attached and, when an image was stored, a file that exists. |
| ProductRoutes.ServeThrough | routes/productRoutes.js:10-72 | A request whose route's stages all call `next()` is answered by that route's handler on the state the stages left. |
| ProductRoutes.Serve | routes/productRoutes.js:10-72 | A product request never changes users. An unmatched path gets the 404 page. A matched route without an Authorization header gets 401 and changes nothing. |
| ProductRoutes.ServePreservesValid | routes/productRoutes.js:10-72 | Every product request keeps the collection invariants. |
| ProductRoutes.CategoriesBeforeId | routes/productRoutes.js:27-31 | `GET /categories` reaches getCategories, never getProductById. |
| ProductRoutes.CreateNeedsImage | routes/productRoutes.js:10-22 | A create request without an image gets 400 "Image is required" before validation, with nothing changed. |
| ProductRoutes.CreateStagesWithImage | routes/productRoutes.js:10-20 | With a decodable logo and a verified token, the create route's stages store the logo and record the validators' messages. |
| ProductRoutes.CreateValidationAfterStore | routes/productRoutes.js:14-20 | Create validation runs after the image is stored. When it fails, the reply carries the validators' messages and the stored file is removed again. |
| ProductRoutes.FailedCreateChangesNothing | routes/productRoutes.js:10-22 | A create request that does not end in 201 leaves the database and the upload directory unchanged. |
| ProductRoutes.UpdateStagesWithoutFile | routes/productRoutes.js:38-50 | Without a file, the update route skips compression and only authenticates and records the validators' messages. |
| ProductRoutes.UpdateIgnoresValidators | routes/productRoutes.js:52-54 | Without a new image, an authenticated update is exactly updateProduct on the body as sent, whatever its validators say. |
| ProductRoutes.AssignNeedsAdmin | routes/productRoutes.js:63-72 | A valid non-admin token gets 403 on assign, with nothing changed. |
| ProductRoutes.AnyUserDeletesAnyProduct | routes/productRoutes.js:60 | Any verified token, of any role and assigned or not, deletes an existing product whose logo file is present. |
| ProductRoutes.HandleRequest | routes/productRoutes.js:10-72 | The request over the database object, through the controller methods, ends as `Serve` says and keeps the collections valid. |
| UserRoutes.RoutesAreGuarded | routes/userRoutes.js:10-49 | The table `UserRoutes.Routes` lists the six routes of the file in declaration order: POST /register, POST /login, GET /, POST /upload-profile-pic, PUT /update, GET /me. Every route except login starts with an auth gate (the admin gate on register and the list). Login has only validators, and only validators follow `compressImage`. |
| UserRoutes.StagesAdmit | routes/userRoutes.js:10-49 | A user route's stages that reach the handler leave a caller attached (except on login) and, when an image was stored, a file that exists. |
| UserRoutes.ServeThrough | routes/userRoutes.js:10-49 | A request whose route's stages all call `next()` is answered by that route's handler on the state the stages left. |
| UserRoutes.Serve | routes/userRoutes.js:10-49 | A request to one of the six user routes is resolved, run through its stages and dispatched to its handler. It never changes products. An unmatched path gets the 404 page. A request without an Authorization header changes nothing. |
| UserRoutes.ServePreservesValid | routes/userRoutes.js:10-49 | Every user request keeps the collection invariants. |
| UserRoutes.DispatchKeepsPasswords | routes/userRoutes.js:10-49 | No handler reachable from the user routes removes a user or changes a stored hash. |
| UserRoutes.NoRequestChangesPasswords | routes/userRoutes.js:2 | No request through the user routes removes a user or changes a stored hash. The file imports no updatePassword, so no route reaches the handler that would. |
| UserRoutes.RegisterNeedsAdmin | routes/userRoutes.js:10-12 | A valid non-admin token gets 403 on register, with nothing changed. |
| UserRoutes.ListNeedsAdmin | routes/userRoutes.js:33 | A valid non-admin token gets 403 on the user list. |
| UserRoutes.LoginNeedsNoToken | routes/userRoutes.js:23-30 | Login answers as loginUser on the body and the login validators' messages, whatever the Authorization header. |
| UserRoutes.ProfileUploadNeedsImage | routes/userRoutes.js:36 | A profile upload without a file gets 400 "Image is required", with nothing changed. |
| UserRoutes.UpdateStagesAdmit | routes/userRoutes.js:39-46 | For a verified token, the update route's stages always reach the handler, with the validator's messages recorded. |
| UserRoutes.UpdateNameNotEnforced | routes/userRoutes.js:43 | Without a name, "Name is required" is recorded, yet the update answers 200 and nothing changes. |
| UserRoutes.MissingNameFails | routes/userRoutes.js:43 | A body without a name fails the update route's one chain, so exactly "Name is required" is recorded. |
| UserRoutes.UpdateWithoutName | controllers/userController.js:102-115 | A self-update without a name, for an existing caller and a successful save, answers 200 and changes nothing. |
| UserRoutes.HandleRequest | routes/userRoutes.js:10-49 | The request over the database object, through the controller methods, ends as `Serve` says and keeps the collections valid. |

## Left out

- The application bootstrap is left out: app.js (route mounting, CORS, static file serving, JSON and form body parsing) and config/db.js (the MongoDB connection). Requests are taken as already parsed.
- models/User.js is not part of this model. The user fields come from how the controllers use them, and the schema's verdict on `save()` is the boolean `saved`.
- Image processing is reduced to two facts: whether a file came under the expected form field, and whether sharp can decode it. multer's memory storage, the resize to 300x300, JPEG encoding and `mkdirSync` are left out.
- `compressImage` names files `logo-<timestamp>.jpg`, and two uploads within one millisecond can collide. The model takes the name as an input and assumes it is not in use yet (`Pipeline.Consistent`).
- bcrypt, jsonwebtoken, `JSON.parse`, the cast of a list to ObjectIds, the case-insensitive `$regex` match and `isEmail` are uninterpreted functions. Properties that need them to behave as documented state that as a hypothesis.
- Sorting by an arbitrary `sort` field is not computed. The listing receives the collection already enumerated in ascending order of that field.
- `findOne` scans a supplied natural order. A missing email or SKU in a filter matches any document, as Mongoose drops `undefined` filter values.
- Document ids are opaque strings, and a lookup by an id that is not a valid ObjectId is a lookup of an unknown id. Mongoose would throw a CastError there, and each handler's catch answers 500. In the model getProductById answers 200 with `null` for such an id (`ProductDirectory.ById`), and the other lookups by id (updateProduct, deleteProduct, the product and user of assignProduct, and the user handlers' lookups by the token's id) answer 404.
- A body field sent as a JSON array where text is expected reads as absent, except for `assignedTo` on assign, which stores the array.
- For getUsers, a non-numeric `page`, an empty `limit` parameter (falsy, so no window in the source) and a limit like `"5x"` (readable by `parseInt` but not by arithmetic) are not distinguished. A limit is either absent, a number, or unreadable, and an unreadable one is rejected with 500. Negative limits are not modelled either.
- For getProducts, a `page` that `parseInt` cannot read (NaN) is treated as absent. The model never produces the NaN skip the source would then compute.
- ProductDirectory.List: the model's limit is a natural number, so a negative `limit` such as `-3` is not modelled. In the source `parseInt("-3") || 0` is -3: page 1 passes `.limit(-3)` to MongoDB, and from page 2 on the skip is negative and the query fails with 500.
- ProductDirectory.List: always answers 200. A `search` string that is not a valid regular expression makes the `$regex` query fail with 500 in the source, and the model does not capture that, since the match is an uninterpreted function.
- Validation.Errors: express-validator's `check(field)` looks for the field in the body, cookies, headers, route parameters and query string. The model validates only the request body, so a field sent only in the query string (for example `?sku=abc`) fails validation in the model but may pass in the source.
- Paths are matched as exact segment lists: Express's case-insensitive and URL-decoded matching and trailing slashes are left out.
- Concurrency is left out: async interleaving, the check-then-insert races on SKU and email, and crash windows between a file write and a save. Requests are handled one at a time.
- `console.log` output and the exact JSON serialisation of replies are left out. A reply is a status and a payload value.
- A successful `User.save()` on registration checks only the `saved` flag and a fresh id. Email uniqueness after registration follows from the preceding `findOne`, not from a unique index.

=== FILE: auth_middleware.dfy ===
/** The two authorization gates of middlewares/authMiddleware.js as decisions
    over the `Authorization` header, the token verifier and the role. */
module AuthMiddleware {
  import opened Common

  /** A gate either answers the request itself or lets it through with the
      decoded claims attached as `req.user`. */
  datatype Decision = Denied(status: Status, message: string) | Admitted(user: Claims)

  /** JavaScript's `s.split(" ")`: the pieces between single spaces, empty
      pieces included. */
  function Split(s: string): (parts: seq<string>)
    ensures |parts| >= 1
    decreases |s|
  {
    if s == [] then [[]]
    else
      var rest := Split(s[1..]);
      if s[0] == ' ' then [[]] + rest else [[s[0]] + rest[0]] + rest[1..]
  }

  /** `header.split(" ")[1]`; None where JavaScript gives `undefined`. */
  function BearerToken(header: string): Option<string> {
    var parts := Split(header);
    if |parts| >= 2 then Some(parts[1]) else None
  }

  lemma {:induction false} SplitWithoutSpace(t: string)
    requires ' ' !in t
    ensures Split(t) == [t]
  {
    if t != [] {
      assert t[0] != ' ' && t == [t[0]] + t[1..];
      SplitWithoutSpace(t[1..]);
    }
  }

  lemma {:induction false} SplitAtOneSpace(w: string, t: string)
    requires ' ' !in w && ' ' !in t
    ensures Split(w + " " + t) == [w, t]
  {
    var s := w + " " + t;
    if w == [] {
      assert s[1..] == t;
      SplitWithoutSpace(t);
    } else {
      assert s[0] == w[0] != ' ' && s[1..] == w[1..] + " " + t;
      SplitAtOneSpace(w[1..], t);
      assert w == [w[0]] + w[1..];
    }
  }

  /** The token is the part after the scheme: `"Bearer " + t` yields `t`. */
  lemma BearerTokenOf(scheme: string, t: string)
    requires ' ' !in scheme && ' ' !in t
    ensures BearerToken(scheme + " " + t) == Some(t)
  {
    SplitAtOneSpace(scheme, t);
  }

  /** The claims a header proves, if any: it is present and non-empty, it has
      a second space-separated part, and that part verifies. */
  function Credential(header: Option<string>, svc: Services): Option<Claims> {
    if !Truthy(header) then None
    else
      match BearerToken(header.value)
      case None => None
      case Some(t) => svc.verify(t)
  }

  /** `authMiddleware`: any verifying token gets through, whatever its role. */
  function Authenticate(header: Option<string>, svc: Services): (d: Decision)
    ensures !Truthy(header) ==> d == Denied(Unauthorized, "Access denied")
    ensures Truthy(header) && Credential(header, svc).None? ==> d == Denied(BadRequest, "Invalid token")
    ensures d.Admitted? <==> Credential(header, svc).Some?
    ensures d.Admitted? ==> d.user == Credential(header, svc).value
  {
    if !Truthy(header) then Denied(Unauthorized, "Access denied")
    else
      var decoded := match BearerToken(header.value)
        case None => None
        case Some(t) => svc.verify(t);
      match decoded
      case None => Denied(BadRequest, "Invalid token")
      case Some(c) => Admitted(c)
  }

  /** `authAdminMiddleware`: as `authMiddleware`, but a verified non-admin
      token is refused with 403 and `req.user` is not set. */
  function AuthenticateAdmin(header: Option<string>, svc: Services): (d: Decision)
    ensures !Truthy(header) ==> d == Denied(Unauthorized, "Access denied")
    ensures Truthy(header) && Credential(header, svc).None? ==> d == Denied(BadRequest, "Invalid token")
    ensures Credential(header, svc).Some? && !IsAdmin(Credential(header, svc).value) ==>
              d == Denied(Forbidden, "Access denied")
    ensures d.Admitted? <==> Credential(header, svc).Some? && IsAdmin(Credential(header, svc).value)
    ensures d.Admitted? ==> d.user == Credential(header, svc).value
  {
    if !Truthy(header) then Denied(Unauthorized, "Access denied")
    else
      var decoded := match BearerToken(header.value)
        case None => None
        case Some(t) => svc.verify(t);
      match decoded
      case None => Denied(BadRequest, "Invalid token")
      case Some(c) => if !IsAdmin(c) then Denied(Forbidden, "Access denied") else Admitted(c)
  }

  /** The admin gate is the plain gate followed by a role check: the two
      decide alike except that a verified non-admin is turned away with 403. */
  lemma AdminGateIsGatePlusRole(header: Option<string>, svc: Services)
    ensures AuthenticateAdmin(header, svc) ==
              match Authenticate(header, svc)
              case Admitted(c) => if IsAdmin(c) then Admitted(c) else Denied(Forbidden, "Access denied")
              case denied => denied
  {
  }

  /** A request carrying `Authorization: Bearer <token>` for a token the
      signer issued gets through with exactly the signed claims. */
  lemma SignedTokenAdmitted(svc: Services, c: Claims)
    requires TokenSound(svc)
    ensures Authenticate(Some("Bearer " + svc.sign(c)), svc) == Admitted(c)
  {
    var t := svc.sign(c);
    assert ' ' !in t && svc.verify(t) == Some(c);
    assert "Bearer " + t == "Bearer" + " " + t;
    BearerTokenOf("Bearer", t);
  }
}

=== FILE: common.dfy ===
/** Shared vocabulary of the catalog backend: identifiers, request bodies,
    token claims and the black-box services the request handlers call. */
module Common {

  datatype Option<T> = None | Some(value: T) {
    function GetOr(default: T): T {
      match this
      case Some(v) => v
      case None => default
    }
  }

  /** Document identifiers (MongoDB ObjectIds, kept opaque). */
  type UserId = string
  type ProductId = string

  /** A file name inside the upload directory `public/uploads`. */
  type FileName = string

  /** A request-body value: a string (a multipart form field or a JSON string)
      or a JSON array of strings. */
  datatype Value = Str(s: string) | Arr(items: seq<string>)

  /** `req.body`, keyed by field name. */
  type Body = map<string, Value>

  /** `req.body[key]` read as text; a missing key (JavaScript `undefined`) is None. */
  function Field(body: Body, key: string): Option<string> {
    if key in body && body[key].Str? then Some(body[key].s) else None
  }

  /** JavaScript truthiness of an optional string: `undefined` and `""` are falsy. */
  predicate Truthy(o: Option<string>) {
    o.Some? && o.value != ""
  }

  /** The JavaScript expression `o || fallback`. */
  function OrElse(o: Option<string>, fallback: string): (r: string)
    ensures Truthy(o) ==> r == o.value
    ensures !Truthy(o) ==> r == fallback
  {
    if Truthy(o) then o.value else fallback
  }

  /** The payload of a verified session token: `{ id, role }`. */
  datatype Claims = Claims(id: UserId, role: string)

  predicate IsAdmin(c: Claims) {
    c.role == "admin"
  }

  /** What `JSON.parse` makes of the `assignedTo` form field, as far as the
      handlers can tell: a syntax error, a falsy value (`null`, `false`, `0`,
      `""`), a value Mongoose casts to a list of user ids, or a truthy value
      that cannot be cast to one. */
  datatype Parsed = Malformed | Falsy | IdList(ids: seq<UserId>) | Uncastable

  /** The services the handlers call but whose code is not modelled:
      `JSON.parse`, a case-insensitive `$regex` match of a search pattern
      against a field, express-validator's `isEmail`, bcrypt's `hash` and
      `compare`, jsonwebtoken's `sign` and `verify` (None: it throws), and
      Mongoose's cast of a list of strings to the `[ObjectId]` type of a
      path (false: the save rejects the document). */
  datatype Services = Services(
    parseJson: string -> Parsed,
    castsToIds: seq<string> -> bool,
    matches: (string, string) -> bool,
    isEmail: string -> bool,
    hash: string -> string,
    compare: (string, string) -> bool,
    sign: Claims -> string,
    verify: string -> Option<Claims>)

  /** bcrypt's contract: a password compares equal to its own hash. */
  ghost predicate HashSound(svc: Services) {
    forall p :: svc.compare(p, svc.hash(p))
  }

  /** jsonwebtoken's contract: a signed token verifies to its own claims
      and, being base64url text, contains no space. */
  ghost predicate TokenSound(svc: Services) {
    forall c :: svc.verify(svc.sign(c)) == Some(c) && ' ' !in svc.sign(c)
  }

  /** The `limit` query parameter: absent, a number, or a string `parseInt`
      cannot read (NaN). */
  datatype LimitParam = NoLimit | LimitNumber(n: nat) | LimitNaN

  /** The query string of the two list endpoints. `page` is the number
      `parseInt` reads, None when the parameter is absent; an absent `search`,
      `category` or `source` is `""`. The sort key is not listed here: the
      listing is given the collection already enumerated in ascending order
      of that key. */
  datatype Query = Query(
    page: Option<int>,
    limit: LimitParam,
    order: string,
    search: string,
    category: string,
    source: string)

  /** HTTP status codes the backend answers with: 200, 201, 400, 401, 403,
      404 and 500. */
  datatype Status = Ok | Created | BadRequest | Unauthorized | Forbidden | NotFound | InternalError

  /** Exceptions that end a request with status 500: in a handler's `catch`
      block, or in Express's default error handler for a middleware error. */
  datatype Fault =
    | BadJson                   // JSON.parse threw
    | NoSuchFile(name: FileName) // fs.unlinkSync of a missing file threw
    | SaveRejected              // Mongoose validation, cast or duplicate-key error
    | IllegalArguments          // bcrypt called without a string
    | NoUploadedFile            // `req.file.filename` read while `req.file` is undefined
    | QueryRejected             // the query layer refused a skip or limit
    | UnexpectedField           // multer refused a file sent under another field name
}

=== FILE: pipeline.dfy ===
/** How a request travels through a router: the route is the first one whose
    verb and path pattern match, and its middleware stages run in order until
    one answers or the handler is reached. */
module Pipeline {
  import opened Common
  import opened Store
  import opened AuthMiddleware
  import opened Validation
  import opened Sequences

  datatype Verb = GET | POST | PUT | DELETE

  /** A file sent as multipart form data: the form field it came under and
      whether sharp can decode it as an image. */
  datatype Upload = Upload(field: string, decodable: bool)

  /** A request as a router sees it. `path` holds the non-empty segments
      after the router's mount point; `authorization` is the header;
      `body` and `query` are already parsed. */
  datatype Request = Request(
    verb: Verb,
    path: seq<string>,
    authorization: Option<string>,
    body: Body,
    query: Query,
    upload: Option<Upload>)

  /** What a request reads from outside the model: the product and user
      collections sorted by the requested key, the users in their natural
      order (what `findOne` scans), the file name `compressImage` picks from
      the clock, the id a new document gets, and whether a user document
      passes its schema on `save()`. */
  datatype Env = Env(
    productsSorted: seq<ProductId>,
    usersSorted: seq<UserId>,
    usersNatural: seq<UserId>,
    storedName: FileName,
    newId: string,
    saved: bool)

  /** The orders enumerate the collections and the new file name is not
      taken yet. */
  ghost predicate Consistent(env: Env, st: State) {
    && Enumerates(env.productsSorted, st.products.Keys)
    && Enumerates(env.usersSorted, st.users.Keys)
    && Enumerates(env.usersNatural, st.users.Keys)
    && env.storedName !in st.uploads
  }

  /** The middleware a route lists before its handler. */
  datatype Stage =
    | AuthUser                    // authMiddleware
    | AuthAdmin                   // authAdminMiddleware
    | Receive(field: string)      // upload.single(field)
    | Compress                    // compressImage
    | CompressIfFile              // the update route's wrapper: compressImage only when a file came
    | Validate(rules: seq<Rule>)  // an array of express-validator chains

  /** What the stages have added to the request so far: `req.user`,
      `req.file`, the name the compressed image was stored under, and the
      validation messages recorded. */
  datatype Ctx = Ctx(user: Option<Claims>, file: Option<Upload>, stored: Option<FileName>, errors: seq<string>)

  const Fresh := Ctx(None, None, None, [])

  /** Either a stage answered (with the upload directory as it left it), or
      every stage called `next()`. */
  datatype Progress = Stopped(reply: Reply, uploads: set<FileName>) | Reached(ctx: Ctx, uploads: set<FileName>)

  predicate Guards(stage: Stage) {
    stage.AuthUser? || stage.AuthAdmin?
  }

  predicate Stores(stage: Stage) {
    stage.Compress? || stage.CompressIfFile?
  }

  /** `compressImage`. The image is written to `public/uploads` under
      `storedName` (`logo-<timestamp>.jpg`). */
  function Squeeze(req: Request, storedName: FileName, ctx: Ctx, uploads: set<FileName>): (p: Progress)
    ensures ctx.file.None? ==> p == Stopped(Reply(BadRequest, Problem("Image is required")), uploads)
    ensures ctx.file.Some? && !ctx.file.value.decodable ==>
              p == Stopped(Reply(InternalError, Problem("Image processing failed")), uploads)
    ensures p.Reached? <==> ctx.file.Some? && ctx.file.value.decodable
    ensures p.Reached? ==> p.ctx == ctx.(stored := Some(storedName)) && p.uploads == uploads + {storedName}
  {
    match ctx.file
    case None => Stopped(Reply(BadRequest, Problem("Image is required")), uploads)
    case Some(u) =>
      if !u.decodable then Stopped(Reply(InternalError, Problem("Image processing failed")), uploads)
      else Reached(ctx.(stored := Some(storedName)), uploads + {storedName})
  }

  /** One middleware. */
  function Step(stage: Stage, req: Request, svc: Services, storedName: FileName, ctx: Ctx, uploads: set<FileName>): (p: Progress)
    ensures p.Stopped? ==> p.uploads == uploads && !stage.Validate?
    ensures p.Reached? && !Stores(stage) ==> p.uploads == uploads && p.ctx.stored == ctx.stored
    ensures p.Reached? && Stores(stage) ==>
              (p.ctx.stored == ctx.stored && p.uploads == uploads) ||
              (p.ctx.stored == Some(storedName) && p.uploads == uploads + {storedName})
    ensures p.Reached? ==> (p.ctx.user.Some? <==> ctx.user.Some? || Guards(stage))
    ensures p.Reached? && stage.AuthAdmin? ==> IsAdmin(p.ctx.user.value)
  {
    match stage
    case AuthUser =>
      (match Authenticate(req.authorization, svc)
       case Denied(status, message) => Stopped(Say(status, message), uploads)
       case Admitted(c) => Reached(ctx.(user := Some(c)), uploads))
    case AuthAdmin =>
      (match AuthenticateAdmin(req.authorization, svc)
       case Denied(status, message) => Stopped(Say(status, message), uploads)
       case Admitted(c) => Reached(ctx.(user := Some(c)), uploads))
    case Receive(field) =>
      (match req.upload
       case None => Reached(ctx.(file := None), uploads)
       case Some(u) =>
         if u.field == field then Reached(ctx.(file := Some(u)), uploads)
         else Stopped(Fail(UnexpectedField), uploads))
    case Compress => Squeeze(req, storedName, ctx, uploads)
    case CompressIfFile =>
      if ctx.file.Some? then Squeeze(req, storedName, ctx, uploads) else Reached(ctx, uploads)
    case Validate(rules) => Reached(ctx.(errors := ctx.errors + Errors(rules, req.body, svc)), uploads)
  }

  /** No stage after one that stores an image can answer: only validators
      follow it. */
  predicate StoresLast(stages: seq<Stage>) {
    forall i, j :: 0 <= i < j < |stages| && Stores(stages[i]) ==> stages[j].Validate?
  }

  /** The stages of a route, run in order. */
  function Run(stages: seq<Stage>, req: Request, svc: Services, storedName: FileName, ctx: Ctx, uploads: set<FileName>)
    : (p: Progress)
    ensures (forall i :: 0 <= i < |stages| ==> stages[i].Validate?) ==> p.Reached?
    ensures p.Stopped? && StoresLast(stages) ==> p.uploads == uploads
    ensures p.Reached? && ctx.stored.None? ==>
              || (p.ctx.stored.None? && p.uploads == uploads)
              || (p.ctx.stored == Some(storedName) && p.uploads == uploads + {storedName})
    ensures p.Reached? && ctx.stored == Some(storedName) && storedName in uploads ==>
              p.ctx.stored == ctx.stored && p.uploads == uploads
    ensures p.Reached? ==> (p.ctx.user.Some? <==> ctx.user.Some? || exists i :: 0 <= i < |stages| && Guards(stages[i]))
    decreases |stages|
  {
    if stages == [] then Reached(ctx, uploads)
    else
      match Step(stages[0], req, svc, storedName, ctx, uploads)
      case Stopped(reply, files) => Stopped(reply, files)
      case Reached(next, files) =>
        var p := Run(stages[1..], req, svc, storedName, next, files);
        assert forall i :: 1 <= i < |stages| ==> stages[i] == stages[1..][i - 1];
        assert StoresLast(stages) ==> StoresLast(stages[1..]);
        assert StoresLast(stages) && Stores(stages[0]) ==> forall i :: 0 <= i < |stages[1..]| ==> stages[1..][i].Validate?;
        p
  }

  /** A route's path pattern: `/`, a fixed segment, or `/:id`. */
  datatype Pattern = Root | Literal(segment: string) | Param

  predicate Matches(pattern: Pattern, path: seq<string>) {
    match pattern
    case Root => path == []
    case Literal(s) => path == [s]
    case Param => |path| == 1
  }

  /** `req.params.id`: the segment a `/:id` pattern captured. */
  function IdParam(path: seq<string>): string {
    if |path| == 1 then path[0] else ""
  }

  datatype Route<H> = Route(verb: Verb, pattern: Pattern, stages: seq<Stage>, handler: H)

  /** Express's dispatch: the first route, in declaration order, whose verb
      and pattern both match. */
  function Resolve<H>(routes: seq<Route<H>>, verb: Verb, path: seq<string>): (r: Option<nat>)
    ensures r.Some? ==> r.value < |routes| && routes[r.value].verb == verb && Matches(routes[r.value].pattern, path)
    ensures r.Some? ==> forall j :: 0 <= j < r.value ==> !(routes[j].verb == verb && Matches(routes[j].pattern, path))
    ensures r.None? ==> forall j :: 0 <= j < |routes| ==> !(routes[j].verb == verb && Matches(routes[j].pattern, path))
    decreases |routes|
  {
    if routes == [] then None
    else if routes[0].verb == verb && Matches(routes[0].pattern, path) then Some(0)
    else
      match Resolve(routes[1..], verb, path)
      case None => None
      case Some(k) => Some(k + 1)
  }

  /** The route a request reaches is the first one that matches. */
  lemma ResolveFirst<H>(routes: seq<Route<H>>, verb: Verb, path: seq<string>, k: nat)
    requires k < |routes| && routes[k].verb == verb && Matches(routes[k].pattern, path)
    requires forall j :: 0 <= j < k ==> !(routes[j].verb == verb && Matches(routes[j].pattern, path))
    ensures Resolve(routes, verb, path) == Some(k)
  {
  }

  /** Running a stage list is running its first stage, then the rest. */
  lemma RunThrough(stage: Stage, rest: seq<Stage>, req: Request, svc: Services, storedName: FileName,
                   ctx: Ctx, uploads: set<FileName>)
    ensures var p := Step(stage, req, svc, storedName, ctx, uploads);
            Run([stage] + rest, req, svc, storedName, ctx, uploads) ==
              if p.Stopped? then p else Run(rest, req, svc, storedName, p.ctx, p.uploads)
  {
    assert ([stage] + rest)[1..] == rest;
  }

  /** An upload route's stages on a signed-in request without a file:
      compression is skipped and the validators' messages are recorded. */
  lemma OptionalUploadWithoutFile(field: string, rules: seq<Rule>, req: Request, svc: Services, storedName: FileName,
                                  uploads: set<FileName>)
    requires req.upload.None? && Credential(req.authorization, svc).Some?
    ensures Run([AuthUser, Receive(field), CompressIfFile, Validate(rules)], req, svc, storedName, Fresh, uploads) ==
              Reached(Fresh.(user := Credential(req.authorization, svc), errors := Errors(rules, req.body, svc)), uploads)
  {
    var authed := Fresh.(user := Credential(req.authorization, svc));
    var last := [Validate(rules)];
    assert [AuthUser, Receive(field), CompressIfFile, Validate(rules)] == [AuthUser] + ([Receive(field)] + ([CompressIfFile] + last));
    RunThrough(AuthUser, [Receive(field)] + ([CompressIfFile] + last), req, svc, storedName, Fresh, uploads);
    RunThrough(Receive(field), [CompressIfFile] + last, req, svc, storedName, authed, uploads);
    RunThrough(CompressIfFile, last, req, svc, storedName, authed, uploads);
    RunThrough(Validate(rules), [], req, svc, storedName, authed, uploads);
    assert authed.errors + Errors(rules, req.body, svc) == Errors(rules, req.body, svc);
  }

  /** A required-upload route's stages on a signed-in request with a
      decodable image in the right field: the image is stored, then the
      validators' messages are recorded. */
  lemma RequiredUploadWithImage(field: string, rules: seq<Rule>, req: Request, svc: Services, storedName: FileName,
                                uploads: set<FileName>)
    requires req.upload == Some(Upload(field, true)) && Credential(req.authorization, svc).Some?
    ensures Run([AuthUser, Receive(field), Compress, Validate(rules)], req, svc, storedName, Fresh, uploads) ==
              Reached(Ctx(Credential(req.authorization, svc), req.upload, Some(storedName), Errors(rules, req.body, svc)),
                      uploads + {storedName})
  {
    var authed := Fresh.(user := Credential(req.authorization, svc));
    var received := authed.(file := req.upload);
    var stored := received.(stored := Some(storedName));
    var last := [Validate(rules)];
    assert [AuthUser, Receive(field), Compress, Validate(rules)] == [AuthUser] + ([Receive(field)] + ([Compress] + last));
    RunThrough(AuthUser, [Receive(field)] + ([Compress] + last), req, svc, storedName, Fresh, uploads);
    RunThrough(Receive(field), [Compress] + last, req, svc, storedName, authed, uploads);
    RunThrough(Compress, last, req, svc, storedName, received, uploads);
    RunThrough(Validate(rules), [], req, svc, storedName, stored, uploads + {storedName});
    assert stored.errors + Errors(rules, req.body, svc) == Errors(rules, req.body, svc);
  }
}

=== FILE: product_controller.dfy ===
/** The state-changing handlers of controllers/productController.js, written
    step by step over the database object and proved to follow the functions
    of ProductDirectory. The read-only handlers are those functions. */
module ProductController {
  import opened Common
  import opened ProductModel
  import opened Store
  import opened ProductDirectory

  /** `if (req.file) fs.unlinkSync(req.file.path)`. */
  method RemoveUpload(db: Db, file: Option<FileName>)
    modifies db`uploads
    ensures db.uploads == Unlink(old(db.uploads), file)
  {
    if file.Some? {
      db.uploads := db.uploads - {file.value};
    }
  }

  method CreateProduct(db: Db, svc: Services, caller: Claims, body: Body, file: Option<FileName>,
                       errors: seq<string>, newId: ProductId) returns (reply: Reply)
    requires db.Valid()
    requires file.Some? ==> file.value in db.uploads
    modifies db
    ensures db.Valid()
    ensures Outcome(reply, db.Model()) == Create(old(db.Model()), svc, caller, body, file, errors, newId)
  {
    CreatePreservesValid(db.Model(), svc, caller, body, file, errors, newId);
    if errors != [] {
      RemoveUpload(db, file);
      return Reply(BadRequest, FieldErrors(errors));
    }
    var parsed := ParseAssigned(body, svc);
    if parsed.Malformed? {
      RemoveUpload(db, file);
      return Fail(BadJson);
    }
    if SkuTaken(db.products, Field(body, "sku")) {
      RemoveUpload(db, file);
      return Say(BadRequest, "SKU already exists");
    }
    if parsed.Uncastable? {
      RemoveUpload(db, file);
      return Fail(SaveRejected);
    }
    var assignedTo := if parsed.IdList? then parsed.ids else [caller.id];
    var product := Draft(body, caller, file, assignedTo);
    if newId in db.products || !Admissible(db.products, newId, product) {
      RemoveUpload(db, file);
      return Fail(SaveRejected);
    }
    db.products := db.products[newId := product];
    reply := Say(Created, "Product created successfully");
  }

  method UpdateProduct(db: Db, svc: Services, id: ProductId, body: Body, file: Option<FileName>)
    returns (reply: Reply)
    requires db.Valid()
    requires file.Some? ==> file.value in db.uploads
    modifies db
    ensures db.Valid()
    ensures Outcome(reply, db.Model()) == Update(old(db.Model()), svc, id, body, file)
  {
    UpdatePreservesValid(db.Model(), svc, id, body, file);
    if id !in db.products {
      return Say(NotFound, "Product not found");
    }
    var product := db.products[id];
    if file.Some? {
      if product.logo != "" && product.logo in db.uploads {
        db.uploads := db.uploads - {product.logo};
      }
      product := product.(logo := file.value);
    }
    product := product.(name := OrElse(Field(body, "name"), product.name));
    product := product.(sku := OrElse(Field(body, "sku"), product.sku));
    if Truthy(Field(body, "category")) {
      product := product.(category := Field(body, "category"));
    }
    product := product.(source := OrElse(Field(body, "source"), product.source));
    var parsed := ParseAssigned(body, svc);
    if parsed.Malformed? {
      RemoveUpload(db, file);
      return Fail(BadJson);
    }
    if parsed.IdList? {
      product := product.(assignedTo := parsed.ids);
    }
    if parsed.Uncastable? || !Admissible(db.products, id, product) {
      RemoveUpload(db, file);
      return Fail(SaveRejected);
    }
    db.products := db.products[id := product];
    reply := Say(Ok, "Product updated successfully");
  }

  method AssignProduct(db: Db, svc: Services, body: Body, errors: seq<string>) returns (reply: Reply)
    requires db.Valid()
    modifies db
    ensures db.Valid()
    ensures Outcome(reply, db.Model()) == Assign(old(db.Model()), svc, body, errors)
  {
    AssignPreservesValid(db.Model(), svc, body, errors);
    if errors != [] {
      return Reply(BadRequest, FieldErrors(errors));
    }
    var productId := Field(body, "productId");
    if productId.None? || productId.value !in db.products {
      return Say(NotFound, "Product not found");
    }
    var userId := Field(body, "userId");
    if userId.None? || userId.value !in db.users {
      return Say(NotFound, "User not found");
    }
    var product := db.products[productId.value];
    var given := if "assignedTo" in body then Some(body["assignedTo"]) else None;
    if !svc.castsToIds(AssignedList(given)) {
      return Fail(SaveRejected);
    }
    product := product.(assignedTo := AssignedList(given));
    db.products := db.products[productId.value := product];
    reply := Say(Created, "Product assigned successfully");
  }

  method DeleteProduct(db: Db, id: ProductId) returns (reply: Reply)
    requires db.Valid()
    modifies db
    ensures db.Valid()
    ensures Outcome(reply, db.Model()) == Delete(old(db.Model()), id)
  {
    DeletePreservesValid(db.Model(), id);
    if id !in db.products {
      return Say(NotFound, "Product not found");
    }
    var logo := db.products[id].logo;
    if logo != "" {
      if logo !in db.uploads {
        return Fail(NoSuchFile(logo));
      }
      db.uploads := db.uploads - {logo};
    }
    db.products := db.products - {id};
    reply := Say(Ok, "Product deleted successfully");
  }
}

=== FILE: product_directory.dfy ===
/** What each handler of controllers/productController.js does to the state,
    as functions from the state before the request to the reply and the state
    after it. The methods of ProductController are proved to follow these. */
module ProductDirectory {
  import opened Common
  import opened ProductModel
  import opened UserModel
  import opened Store
  import opened Sequences

  /** `JSON.parse(req.body.assignedTo)`; an absent field throws like
      malformed text does. */
  function ParseAssigned(body: Body, svc: Services): Parsed {
    match Field(body, "assignedTo")
    case None => Malformed
    case Some(s) => svc.parseJson(s)
  }

  /** The document `createProduct` builds. A missing name or SKU is kept as
      `""`, which the save rejects exactly as it rejects a missing one. */
  function Draft(body: Body, caller: Claims, file: Option<FileName>, assignedTo: seq<UserId>): (p: Product)
    ensures p.name == Field(body, "name").GetOr("") && p.sku == Field(body, "sku").GetOr("")
    ensures p.description == Field(body, "description") && p.category == Field(body, "category")
    ensures p.logo == (if file.Some? then file.value else "")
    ensures p.source == (if IsAdmin(caller) then "ADMIN" else "USER")
    ensures p.assignedTo == assignedTo
  {
    Product(
      name := Field(body, "name").GetOr(""),
      sku := Field(body, "sku").GetOr(""),
      description := Field(body, "description"),
      category := Field(body, "category"),
      logo := OrElse(file, ""),
      source := if IsAdmin(caller) then "ADMIN" else "USER",
      assignedTo := assignedTo)
  }

  /** `createProduct`. `errors` are the validation messages recorded by the
      route, `file` the name compressImage stored the logo under, `newId` the
      id the new document gets. Every rejection removes that file and adds no
      document. */
  function Create(st: State, svc: Services, caller: Claims, body: Body, file: Option<FileName>,
                  errors: seq<string>, newId: ProductId): (o: Outcome)
    requires file.Some? ==> file.value in st.uploads
    ensures o.after.users == st.users
    ensures o.reply.status in {Created, BadRequest, InternalError}
    ensures o.reply.status != Created ==> o.after == st.(uploads := Unlink(st.uploads, file))
    ensures o.reply.status == BadRequest <==>
              errors != [] || (ParseAssigned(body, svc) != Malformed && SkuTaken(st.products, Field(body, "sku")))
    ensures errors == [] && ParseAssigned(body, svc) == Malformed ==> o.reply == Fail(BadJson)
    ensures o.reply.status == Created <==>
              && errors == []
              && !ParseAssigned(body, svc).Malformed? && !ParseAssigned(body, svc).Uncastable?
              && !SkuTaken(st.products, Field(body, "sku"))
              && newId !in st.products
              && Admissible(st.products, newId,
                            Draft(body, caller, file, if ParseAssigned(body, svc).IdList? then ParseAssigned(body, svc).ids else [caller.id]))
    ensures o.reply.status == Created ==>
              && newId !in st.products
              && o.after.uploads == st.uploads
              && newId in o.after.products
              && o.after.products == st.products[newId := o.after.products[newId]]
              && (o.after.products[newId].source == "ADMIN" <==> IsAdmin(caller))
              && o.after.products[newId].logo == (if file.Some? then file.value else "")
              && o.after.products[newId].assignedTo ==
                   (if ParseAssigned(body, svc).IdList? then ParseAssigned(body, svc).ids else [caller.id])
    ensures o.reply.status == Created ==>
              o.after.products[newId] ==
                Draft(body, caller, file, if ParseAssigned(body, svc).IdList? then ParseAssigned(body, svc).ids else [caller.id])
  {
    var cleaned := st.(uploads := Unlink(st.uploads, file));
    if errors != [] then Outcome(Reply(BadRequest, FieldErrors(errors)), cleaned)
    else
      var parsed := ParseAssigned(body, svc);
      if parsed.Malformed? then Outcome(Fail(BadJson), cleaned)
      else if SkuTaken(st.products, Field(body, "sku")) then Outcome(Say(BadRequest, "SKU already exists"), cleaned)
      else if parsed.Uncastable? then Outcome(Fail(SaveRejected), cleaned)
      else
        var p := Draft(body, caller, file, if parsed.IdList? then parsed.ids else [caller.id]);
        if newId in st.products || !Admissible(st.products, newId, p) then Outcome(Fail(SaveRejected), cleaned)
        else Outcome(Say(Created, "Product created successfully"), st.(products := st.products[newId := p]))
  }

  lemma CreatePreservesValid(st: State, svc: Services, caller: Claims, body: Body, file: Option<FileName>,
                             errors: seq<string>, newId: ProductId)
    requires ValidState(st)
    requires file.Some? ==> file.value in st.uploads
    ensures ValidState(Create(st, svc, caller, body, file, errors, newId).after)
  {
    var o := Create(st, svc, caller, body, file, errors, newId);
    if o.reply.status == Created {
      SavePreservesValid(st.products, newId, o.after.products[newId]);
    }
  }

  /** `if (req.file)`: the old logo is unlinked when it is set and exists. */
  function Superseded(files: set<FileName>, before: Product, file: Option<FileName>): set<FileName> {
    if file.Some? && before.logo != "" && before.logo in files then files - {before.logo} else files
  }

  /** The fields `updateProduct` assigns: a supplied (truthy) value replaces
      the old one, anything else keeps it; `description` is never touched. */
  function Revised(before: Product, body: Body, file: Option<FileName>, parsed: Parsed): (p: Product)
    ensures Truthy(Field(body, "name")) ==> p.name == Field(body, "name").value
    ensures !Truthy(Field(body, "name")) ==> p.name == before.name
    ensures Truthy(Field(body, "sku")) ==> p.sku == Field(body, "sku").value
    ensures !Truthy(Field(body, "sku")) ==> p.sku == before.sku
    ensures Truthy(Field(body, "category")) ==> p.category == Field(body, "category")
    ensures !Truthy(Field(body, "category")) ==> p.category == before.category
    ensures Truthy(Field(body, "source")) ==> p.source == Field(body, "source").value
    ensures !Truthy(Field(body, "source")) ==> p.source == before.source
    ensures p.logo == if file.Some? then file.value else before.logo
    ensures p.assignedTo == if parsed.IdList? then parsed.ids else before.assignedTo
    ensures p.description == before.description
  {
    var withLogo := if file.Some? then before.(logo := file.value) else before;
    withLogo.(
      name := OrElse(Field(body, "name"), withLogo.name),
      sku := OrElse(Field(body, "sku"), withLogo.sku),
      category := if Truthy(Field(body, "category")) then Field(body, "category") else withLogo.category,
      source := OrElse(Field(body, "source"), withLogo.source),
      assignedTo := if parsed.IdList? then parsed.ids else withLogo.assignedTo)
  }

  /** `updateProduct`: the route's validation messages are not an input,
      since the handler never reads them. */
  function Update(st: State, svc: Services, id: ProductId, body: Body, file: Option<FileName>): (o: Outcome)
    requires file.Some? ==> file.value in st.uploads
    ensures o.after.users == st.users
    ensures o.reply.status in {Ok, NotFound, InternalError}
    ensures id !in st.products ==> o == Outcome(Say(NotFound, "Product not found"), st)
    ensures o.reply.status != Ok ==> o.after.products == st.products
    ensures o.reply.status == Ok <==>
              && id in st.products
              && !ParseAssigned(body, svc).Malformed? && !ParseAssigned(body, svc).Uncastable?
              && Admissible(st.products, id, Revised(st.products[id], body, file, ParseAssigned(body, svc)))
    ensures o.reply.status == Ok ==>
              && id in st.products
              && o.after.products == st.products[id := Revised(st.products[id], body, file, ParseAssigned(body, svc))]
              && o.after.uploads == Superseded(st.uploads, st.products[id], file)
    ensures o.reply.status == InternalError ==>
              id in st.products && o.after.uploads == Unlink(Superseded(st.uploads, st.products[id], file), file)
  {
    if id !in st.products then Outcome(Say(NotFound, "Product not found"), st)
    else
      var before := st.products[id];
      var files := Superseded(st.uploads, before, file);
      var parsed := ParseAssigned(body, svc);
      if parsed.Malformed? then Outcome(Fail(BadJson), st.(uploads := Unlink(files, file)))
      else
        var p := Revised(before, body, file, parsed);
        if parsed.Uncastable? || !Admissible(st.products, id, p) then
          Outcome(Fail(SaveRejected), st.(uploads := Unlink(files, file)))
        else
          Outcome(Say(Ok, "Product updated successfully"), st.(products := st.products[id := p], uploads := files))
  }

  lemma UpdatePreservesValid(st: State, svc: Services, id: ProductId, body: Body, file: Option<FileName>)
    requires ValidState(st)
    requires file.Some? ==> file.value in st.uploads
    ensures ValidState(Update(st, svc, id, body, file).after)
  {
    var o := Update(st, svc, id, body, file);
    if o.reply.status == Ok {
      SavePreservesValid(st.products, id, o.after.products[id]);
    }
  }

  /** A new logo with an absent `assignedTo`: the old logo file is already
      gone when JSON.parse throws, yet the document still names it. */
  lemma UpdateParseFailureLeavesDanglingLogo(st: State, svc: Services, id: ProductId, body: Body, file: FileName)
    requires id in st.products && st.products[id].logo != "" && st.products[id].logo in st.uploads
    requires file in st.uploads && file != st.products[id].logo
    requires "assignedTo" !in body
    ensures var o := Update(st, svc, id, body, Some(file));
            && o.reply == Fail(BadJson)
            && o.after.products[id].logo == st.products[id].logo
            && st.products[id].logo !in o.after.uploads
            && file !in o.after.uploads
  {
  }

  /** An update of an unknown id answers 404 but leaves the logo that
      compressImage already stored in the upload directory. */
  lemma UpdateNotFoundKeepsNewUpload(st: State, svc: Services, id: ProductId, body: Body, file: FileName)
    requires id !in st.products && file in st.uploads
    requires forall k :: k in st.products ==> st.products[k].logo != file
    ensures var o := Update(st, svc, id, body, Some(file));
            && o.reply.status == NotFound
            && file in o.after.uploads
            && forall k :: k in o.after.products ==> o.after.products[k].logo != file
  {
  }

  /** `deleteProduct`: the logo is unlinked without an existence check, so a
      missing file aborts the request before the document is removed. */
  function Delete(st: State, id: ProductId): (o: Outcome)
    ensures o.after.users == st.users
    ensures id !in st.products ==> o == Outcome(Say(NotFound, "Product not found"), st)
    ensures id in st.products && st.products[id].logo != "" && st.products[id].logo !in st.uploads ==>
              o == Outcome(Fail(NoSuchFile(st.products[id].logo)), st)
    ensures o.reply.status == Ok <==>
              id in st.products && (st.products[id].logo == "" || st.products[id].logo in st.uploads)
    ensures o.reply.status == Ok ==>
              && o.after.products == st.products - {id}
              && id !in o.after.products
              && o.after.uploads == (if st.products[id].logo != "" then st.uploads - {st.products[id].logo} else st.uploads)
  {
    if id !in st.products then Outcome(Say(NotFound, "Product not found"), st)
    else
      var logo := st.products[id].logo;
      if logo != "" && logo !in st.uploads then Outcome(Fail(NoSuchFile(logo)), st)
      else
        var files := if logo != "" then st.uploads - {logo} else st.uploads;
        Outcome(Say(Ok, "Product deleted successfully"), st.(products := st.products - {id}, uploads := files))
  }

  lemma DeletePreservesValid(st: State, id: ProductId)
    requires ValidState(st)
    ensures ValidState(Delete(st, id).after)
  {
    RemovePreservesValid(st.products, id);
  }

  /** The list `product.assignedTo = assignedTo` stores: a JSON array as it
      is, a single string as a one-element list, nothing as the empty list. */
  function AssignedList(v: Option<Value>): seq<UserId> {
    match v
    case None => []
    case Some(Str(s)) => [s]
    case Some(Arr(items)) => items
  }

  /** `assignProduct`: `assignedTo` is replaced by the given list, whatever
      it held before. The save casts the list to `[ObjectId]` and rejects it
      when that fails; the handler then answers 500 and nothing is stored. */
  function Assign(st: State, svc: Services, body: Body, errors: seq<string>): (o: Outcome)
    ensures o.after.users == st.users && o.after.uploads == st.uploads
    ensures o.reply.status != Created ==> o.after == st
    ensures errors != [] ==> o.reply == Reply(BadRequest, FieldErrors(errors))
    ensures errors == [] && (Field(body, "productId").None? || Field(body, "productId").value !in st.products) ==>
              o.reply == Say(NotFound, "Product not found")
    ensures errors == [] && Field(body, "productId").Some? && Field(body, "productId").value in st.products
            && (Field(body, "userId").None? || Field(body, "userId").value !in st.users) ==>
              o.reply == Say(NotFound, "User not found")
    ensures errors == [] && Field(body, "productId").Some? && Field(body, "productId").value in st.products
            && Field(body, "userId").Some? && Field(body, "userId").value in st.users
            && !svc.castsToIds(AssignedList(if "assignedTo" in body then Some(body["assignedTo"]) else None)) ==>
              o.reply == Fail(SaveRejected)
    ensures o.reply.status == Created <==>
              && errors == []
              && Field(body, "productId").Some? && Field(body, "productId").value in st.products
              && Field(body, "userId").Some? && Field(body, "userId").value in st.users
              && svc.castsToIds(AssignedList(if "assignedTo" in body then Some(body["assignedTo"]) else None))
    ensures o.reply.status == Created ==>
              var pid := Field(body, "productId").value;
              var given := if "assignedTo" in body then Some(body["assignedTo"]) else None;
              o.after.products == st.products[pid := st.products[pid].(assignedTo := AssignedList(given))]
  {
    if errors != [] then Outcome(Reply(BadRequest, FieldErrors(errors)), st)
    else
      var pid := Field(body, "productId");
      var uid := Field(body, "userId");
      if pid.None? || pid.value !in st.products then Outcome(Say(NotFound, "Product not found"), st)
      else if uid.None? || uid.value !in st.users then Outcome(Say(NotFound, "User not found"), st)
      else
        var given := if "assignedTo" in body then Some(body["assignedTo"]) else None;
        if !svc.castsToIds(AssignedList(given)) then Outcome(Fail(SaveRejected), st)
        else
          var p := st.products[pid.value].(assignedTo := AssignedList(given));
          Outcome(Say(Created, "Product assigned successfully"), st.(products := st.products[pid.value := p]))
  }

  lemma AssignPreservesValid(st: State, svc: Services, body: Body, errors: seq<string>)
    requires ValidState(st)
    ensures ValidState(Assign(st, svc, body, errors).after)
  {
    var o := Assign(st, svc, body, errors);
    if o.reply.status == Created {
      var pid := Field(body, "productId").value;
      assert Admissible(st.products, pid, st.products[pid]);
      SavePreservesValid(st.products, pid, o.after.products[pid]);
    }
  }

  // ----- getProducts -----

  /** The `$or` on name and SKU and the exact matches on category and source;
      an empty parameter adds no condition. */
  predicate Selected(p: Product, q: Query, svc: Services) {
    && (q.search == "" || svc.matches(q.search, p.name) || svc.matches(q.search, p.sku))
    && (q.category == "" || p.category == Some(q.category))
    && (q.source == "" || p.source == q.source)
  }

  /** The ownership restriction `assignedTo: { $in: [req.user.id] }`, which
      applies to every caller whose role is not "admin". */
  predicate Visible(p: Product, caller: Claims) {
    IsAdmin(caller) || caller.id in p.assignedTo
  }

  /** The ids `countDocuments` counts. */
  function Matches(table: map<ProductId, Product>, caller: Claims, q: Query, svc: Services): set<ProductId> {
    set id | id in table && Selected(table[id], q, svc) && Visible(table[id], caller)
  }

  /** `Math.max(parseInt(page), 1)` with the default page 1. */
  function PageNumber(page: Option<int>): (n: nat)
    ensures n >= 1
    ensures page.Some? && page.value >= 1 ==> n == page.value
    ensures page.None? || page.value < 1 ==> n == 1
  {
    if page.None? || page.value < 1 then 1 else page.value
  }

  /** `parseInt(limit) || 0` with the default limit 5. */
  function PageSize(limit: LimitParam): nat {
    match limit
    case NoLimit => 5
    case LimitNumber(n) => n
    case LimitNaN => 0
  }

  /** `(page - 1) * limit`, the number of matching documents skipped. */
  function Offset(q: Query): nat {
    (PageNumber(q.page) - 1) * PageSize(q.limit)
  }

  /** Whether the query returns the document stored under `id`. */
  predicate Listed(table: map<ProductId, Product>, caller: Claims, q: Query, svc: Services, id: ProductId) {
    id in table && Selected(table[id], q, svc) && Visible(table[id], caller)
  }

  /** The documents of `order` that the query returns: every listed document
      of `order` and nothing else. `FilteredInOrder` shows they keep the
      order of `order`. */
  function Filtered(order: seq<ProductId>, table: map<ProductId, Product>, caller: Claims, q: Query, svc: Services): (r: seq<ProductId>)
    requires forall id :: id in order ==> id in table
    ensures forall i :: 0 <= i < |r| ==> r[i] in order && Listed(table, caller, q, svc, r[i])
    ensures forall id :: id in order && Listed(table, caller, q, svc, id) ==> id in r
    decreases |order|
  {
    if order == [] then []
    else
      var rest := Filtered(order[1..], table, caller, q, svc);
      assert forall id :: id in order[1..] ==> id in order;
      if Listed(table, caller, q, svc, order[0]) then [order[0]] + rest else rest
  }

  /** Filtering keeps the order of the enumeration: the result sits in
      `order` at strictly increasing positions `idx`. */
  lemma {:induction false} FilteredInOrder(order: seq<ProductId>, table: map<ProductId, Product>, caller: Claims, q: Query, svc: Services)
    returns (idx: seq<int>)
    requires forall id :: id in order ==> id in table
    ensures Embeds(Filtered(order, table, caller, q, svc), order, idx)
    decreases |order|
  {
    if order == [] {
      idx := [];
    } else {
      var tail := order[1..];
      assert order == [order[0]] + tail;
      assert forall id :: id in tail ==> id in order;
      var rest := FilteredInOrder(tail, table, caller, q, svc);
      if Listed(table, caller, q, svc, order[0]) {
        EmbedsCons(order[0], Filtered(tail, table, caller, q, svc), tail, rest);
        idx := [0] + Shift(rest);
      } else {
        EmbedsSkip(order[0], Filtered(tail, table, caller, q, svc), tail, rest);
        idx := Shift(rest);
      }
    }
  }

  /** `getProducts`: one page of the matching documents and their count. */
  function List(st: State, ascending: seq<ProductId>, caller: Claims, q: Query, svc: Services): (r: Reply)
    requires Enumerates(ascending, st.products.Keys)
    ensures r.status == Ok && r.payload.ProductPage?
    ensures r.payload.total == |Matches(st.products, caller, q, svc)|
    ensures forall i :: 0 <= i < |r.payload.ids| ==> r.payload.ids[i] in Matches(st.products, caller, q, svc)
  {
    var matching := Filtered(Arranged(ascending, q.order), st.products, caller, q, svc);
    var size := PageSize(q.limit);
    Reply(Ok, ProductPage(Window(matching, Offset(q), size),
                          |Matches(st.products, caller, q, svc)|))
  }

  /** A caller without the admin role is only ever shown products assigned
      to them, whatever search, category and source they ask for. */
  lemma NonAdminSeesOnlyAssigned(st: State, ascending: seq<ProductId>, caller: Claims, q: Query, svc: Services)
    requires Enumerates(ascending, st.products.Keys)
    requires !IsAdmin(caller)
    ensures var ids := List(st, ascending, caller, q, svc).payload.ids;
            forall i :: 0 <= i < |ids| ==> caller.id in st.products[ids[i]].assignedTo
  {
  }

  /** `total` depends on the filter and the caller only, never on the page,
      the limit or the sort direction. */
  lemma TotalIgnoresWindow(st: State, ascending: seq<ProductId>, caller: Claims, q: Query, q': Query, svc: Services)
    requires Enumerates(ascending, st.products.Keys)
    requires q.search == q'.search && q.category == q'.category && q.source == q'.source
    ensures List(st, ascending, caller, q, svc).payload.total == List(st, ascending, caller, q', svc).payload.total
  {
    assert forall p :: Selected(p, q, svc) == Selected(p, q', svc);
    assert Matches(st.products, caller, q, svc) == Matches(st.products, caller, q', svc);
  }

  lemma {:induction false} FilteredCount(order: seq<ProductId>, table: map<ProductId, Product>, caller: Claims, q: Query, svc: Services)
    requires Distinct(order)
    requires forall id :: id in order ==> id in table
    ensures |Filtered(order, table, caller, q, svc)| == |set id | id in order && Listed(table, caller, q, svc, id)|
    decreases |order|
  {
    var S := set id | id in order && Listed(table, caller, q, svc, id);
    if order == [] {
      assert S == {};
    } else {
      var head, tail := order[0], order[1..];
      assert Distinct(tail);
      assert forall id :: id in tail ==> id in order;
      FilteredCount(tail, table, caller, q, svc);
      var T := set id | id in tail && Listed(table, caller, q, svc, id);
      assert forall j :: 0 <= j < |tail| ==> tail[j] == order[j + 1] != head;
      assert head !in T;
      assert forall id :: id in order <==> id == head || id in tail;
      if Listed(table, caller, q, svc, head) {
        assert S == T + {head};
      } else {
        assert S == T;
      }
    }
  }

  /** Filtering an enumeration of the whole table keeps exactly the matching
      documents, one each. */
  lemma EveryMatchFiltered(order: seq<ProductId>, table: map<ProductId, Product>, caller: Claims, q: Query, svc: Services)
    requires Enumerates(order, table.Keys)
    ensures |Filtered(order, table, caller, q, svc)| == |Matches(table, caller, q, svc)|
  {
    FilteredCount(order, table, caller, q, svc);
    assert (set id | id in order && Listed(table, caller, q, svc, id)) == Matches(table, caller, q, svc);
  }

  /** Every page: the matching documents in the requested sort order (each
      once and in that order, by `MatchesInOrder`), are cut at `skip = (page - 1) * limit`; the page holds the next
      `limit` of them (all the rest when the limit is 0), entry i being the
      match at position `skip + i`. */
  lemma PageIsWindow(st: State, ascending: seq<ProductId>, caller: Claims, q: Query, svc: Services)
    requires Enumerates(ascending, st.products.Keys)
    ensures var arranged := Arranged(ascending, q.order);
            var matching := Filtered(arranged, st.products, caller, q, svc);
            var r := List(st, ascending, caller, q, svc);
            var n, l := r.payload.total, PageSize(q.limit);
            var skip := Offset(q);
            && |matching| == n
            && |r.payload.ids| == (if skip >= n then 0 else if l == 0 || skip + l > n then n - skip else l)
            && forall i :: 0 <= i < |r.payload.ids| ==> r.payload.ids[i] == matching[skip + i]
  {
    var matching := Filtered(Arranged(ascending, q.order), st.products, caller, q, svc);
    var r := List(st, ascending, caller, q, svc);
    var l := PageSize(q.limit);
    var skip := Offset(q);
    MatchesInOrder(st.products, ascending, caller, q, svc);
    assert r.payload.total == |matching|;
    var w := Window(matching, skip, l);
    assert r.payload.ids == w;
  }

  /** The matching documents in the requested sort order: a subsequence of
      that order, each document once, as many as there are matches. */
  lemma MatchesInOrder(table: map<ProductId, Product>, ascending: seq<ProductId>, caller: Claims, q: Query, svc: Services)
    requires Enumerates(ascending, table.Keys)
    ensures var arranged := Arranged(ascending, q.order);
            var matching := Filtered(arranged, table, caller, q, svc);
            && (exists idx :: Embeds(matching, arranged, idx))
            && Distinct(matching)
            && |matching| == |Matches(table, caller, q, svc)|
  {
    var arranged := Arranged(ascending, q.order);
    ArrangedEnumerates(ascending, q.order, table.Keys);
    EveryMatchFiltered(arranged, table, caller, q, svc);
    var idx := FilteredInOrder(arranged, table, caller, q, svc);
    EmbedsDistinct(Filtered(arranged, table, caller, q, svc), arranged, idx);
  }

  /** With limit 0 (or an unreadable limit) the single page holds every
      matching document, in the requested order, and their number is `total`. */
  lemma UnlimitedPageIsEverything(st: State, ascending: seq<ProductId>, caller: Claims, q: Query, svc: Services)
    requires Enumerates(ascending, st.products.Keys)
    requires q.limit == LimitNumber(0) || q.limit == LimitNaN
    ensures var r := List(st, ascending, caller, q, svc);
            && r.payload.ids == Filtered(Arranged(ascending, q.order), st.products, caller, q, svc)
            && |r.payload.ids| == r.payload.total
  {
    ArrangedEnumerates(ascending, q.order, st.products.Keys);
    EveryMatchFiltered(Arranged(ascending, q.order), st.products, caller, q, svc);
    assert PageSize(q.limit) == 0 && Offset(q) == 0;
  }

  /** `page=2&limit=5` gives the 6th to the 10th matching document. */
  lemma SecondPageOfFive(st: State, ascending: seq<ProductId>, caller: Claims, q: Query, svc: Services)
    requires Enumerates(ascending, st.products.Keys)
    requires q.page == Some(2) && q.limit == LimitNumber(5)
    ensures var matching := Filtered(Arranged(ascending, q.order), st.products, caller, q, svc);
            var ids := List(st, ascending, caller, q, svc).payload.ids;
            ids == if |matching| <= 5 then [] else matching[5..if |matching| < 10 then |matching| else 10]
  {
    var matching := Filtered(Arranged(ascending, q.order), st.products, caller, q, svc);
    assert PageNumber(q.page) == 2 && PageSize(q.limit) == 5;
    assert List(st, ascending, caller, q, svc).payload.ids == Window(matching, 5, 5);
  }

  /** Without a `limit` parameter a page holds at most 5 documents, not all
      of them: with more than 5 matches the first page leaves some out. */
  lemma DefaultLimitIsFive(st: State, ascending: seq<ProductId>, caller: Claims, q: Query, svc: Services)
    requires Enumerates(ascending, st.products.Keys)
    requires q.limit == NoLimit && q.page.None?
    requires |Matches(st.products, caller, q, svc)| > 5
    ensures var r := List(st, ascending, caller, q, svc);
            |r.payload.ids| == 5 < r.payload.total
  {
    ArrangedEnumerates(ascending, q.order, st.products.Keys);
    EveryMatchFiltered(Arranged(ascending, q.order), st.products, caller, q, svc);
    assert PageSize(q.limit) == 5 && Offset(q) == 0;
  }

  // ----- getProductById, getCategories -----

  /** `getProductById`: `res.json(product)` answers 200 in both cases, with
      `null` for an unknown id; no ownership check is made. */
  function ById(st: State, id: ProductId): (r: Reply)
    ensures r.status == Ok
    ensures r.payload.ProductDoc?
    ensures r.payload.product.Some? <==> id in st.products
    ensures r.payload.product.Some? ==> r.payload.product.value == st.products[id]
  {
    Reply(Ok, ProductDoc(if id in st.products then Some(st.products[id]) else None))
  }

  /** `Product.distinct("category")`: each category some product has. */
  function Categories(st: State): (r: Reply)
    ensures r.status == Ok && r.payload.CategoryList?
    ensures forall c :: c in r.payload.categories <==>
              exists id :: id in st.products && st.products[id].category == Some(c)
  {
    Reply(Ok, CategoryList(set id | id in st.products && st.products[id].category.Some? :: st.products[id].category.value))
  }
}

=== FILE: product_model.dfy ===
/** The Product schema (models/Product.js) and the constraints Mongoose
    enforces when a product document is saved. */
module ProductModel {
  import opened Common

  /** A product document. `description` and `category` may be absent; `logo`
      is a file name in the upload directory, `""` when there is none. */
  datatype Product = Product(
    name: string,
    sku: string,
    description: Option<string>,
    category: Option<string>,
    logo: FileName,
    source: string,
    assignedTo: seq<UserId>)

  /** The `enum: ["ADMIN", "USER"]` constraint on `source`. */
  predicate ValidSource(source: string) {
    source == "ADMIN" || source == "USER"
  }

  /** What `save()` of product `p` under key `id` checks against the rest of
      the collection: the required strings are non-empty, `source` is in the
      enum, and no other document holds the same SKU (the unique index). */
  predicate Admissible(table: map<ProductId, Product>, id: ProductId, p: Product) {
    && p.name != ""
    && p.sku != ""
    && ValidSource(p.source)
    && forall k :: k in table && k != id ==> table[k].sku != p.sku
  }

  /** The collection invariant: every stored document passed its save. */
  predicate ValidTable(table: map<ProductId, Product>) {
    forall id :: id in table ==> Admissible(table, id, table[id])
  }

  /** Whether `Product.findOne({ sku })` finds a document. Mongoose drops an
      `undefined` value from a filter, so without a SKU any product matches. */
  predicate SkuTaken(table: map<ProductId, Product>, sku: Option<string>) {
    if sku.Some? then exists k :: k in table && table[k].sku == sku.value else table != map[]
  }

  /** In a valid collection SKUs are pairwise distinct. */
  lemma SkusUnique(table: map<ProductId, Product>, a: ProductId, b: ProductId)
    requires ValidTable(table)
    requires a in table && b in table && a != b
    ensures table[a].sku != table[b].sku
  {
    assert Admissible(table, a, table[a]);
  }

  /** Saving an admissible document keeps the collection valid. */
  lemma SavePreservesValid(table: map<ProductId, Product>, id: ProductId, p: Product)
    requires ValidTable(table)
    requires Admissible(table, id, p)
    ensures ValidTable(table[id := p])
  {
    var t := table[id := p];
    forall k | k in t
      ensures Admissible(t, k, t[k])
    {
      if k != id {
        assert Admissible(table, k, table[k]);
        forall j | j in t && j != k
          ensures t[j].sku != t[k].sku
        {
          if j == id {
            assert table[k].sku != p.sku;
          } else {
            assert table[j].sku != table[k].sku;
          }
        }
      }
    }
  }

  /** Deleting a document keeps the collection valid. */
  lemma RemovePreservesValid(table: map<ProductId, Product>, id: ProductId)
    requires ValidTable(table)
    ensures ValidTable(table - {id})
  {
    var t := table - {id};
    forall k | k in t
      ensures Admissible(t, k, t[k])
    {
      assert Admissible(table, k, table[k]);
    }
  }
}

=== FILE: product_routes.dfy ===
/** routes/productRoutes.js, mounted at `/api/products`: the route table, what
    a request to it does end to end, and the database-object version of it. */
module ProductRoutes {
  import opened Common
  import opened ProductModel
  import opened Store
  import opened Sequences
  import opened AuthMiddleware
  import opened Validation
  import opened Pipeline
  import opened ProductDirectory
  import ProductController

  datatype Handler = CreateProduct | GetProducts | GetCategories | GetProductById | UpdateProduct | DeleteProduct | AssignProduct

  const CreateRules := [
    Rule("name", false, NotEmpty, "Product name is required"),
    Rule("sku", false, NotEmpty, "SKU is required"),
    Rule("sku", false, MinLength(3), "SKU must be at least 3 characters long"),
    Rule("category", false, NotEmpty, "Category is required")]

  const UpdateRules := [
    Rule("name", true, NotEmpty, "Product name is required"),
    Rule("sku", true, MinLength(3), "SKU must be at least 3 characters long"),
    Rule("category", true, NotEmpty, "Category is required")]

  const AssignRules := [
    Rule("productId", false, NotEmpty, "Product ID is required"),
    Rule("userId", false, NotEmpty, "User ID is required"),
    Rule("assignedTo", false, NotEmpty, "assignedTo is required")]

  /** The routes in declaration order; `/categories` comes before `/:id`. */
  const Routes: seq<Route<Handler>> := [
    Route(POST, Root, [AuthUser, Receive("logo"), Compress, Validate(CreateRules)], CreateProduct),
    Route(GET, Root, [AuthUser], GetProducts),
    Route(GET, Literal("categories"), [AuthUser], GetCategories),
    Route(GET, Param, [AuthUser], GetProductById),
    Route(PUT, Param, [AuthUser, Receive("logo"), CompressIfFile, Validate(UpdateRules)], UpdateProduct),
    Route(DELETE, Param, [AuthUser], DeleteProduct),
    Route(POST, Literal("assign"), [AuthAdmin, Validate(AssignRules)], AssignProduct)]

  lemma RoutesAreGuarded()
    ensures forall k :: 0 <= k < |Routes| ==> |Routes[k].stages| > 0 && Guards(Routes[k].stages[0])
    ensures forall k :: 0 <= k < |Routes| ==> StoresLast(Routes[k].stages)
  {
  }

  /** What a route's stages leave for its handler: a caller and, when an
      image was stored, a file that exists. */
  lemma StagesAdmit(k: nat, req: Request, svc: Services, storedName: FileName, uploads: set<FileName>)
    requires k < |Routes|
    ensures var p := Run(Routes[k].stages, req, svc, storedName, Fresh, uploads);
            p.Reached? ==> p.ctx.user.Some? && (p.ctx.stored.Some? ==> p.ctx.stored.value in p.uploads)
  {
    RoutesAreGuarded();
  }

  /** The handler a request reaches, with everything the stages added. */
  function Dispatch(h: Handler, st: State, svc: Services, env: Env, req: Request, ctx: Ctx): (o: Outcome)
    requires ctx.user.Some?
    requires ctx.stored.Some? ==> ctx.stored.value in st.uploads
    requires Enumerates(env.productsSorted, st.products.Keys)
    ensures o.after.users == st.users
  {
    var caller := ctx.user.value;
    match h
    case CreateProduct => Create(st, svc, caller, req.body, ctx.stored, ctx.errors, env.newId)
    case GetProducts => Outcome(List(st, env.productsSorted, caller, req.query, svc), st)
    case GetCategories => Outcome(Categories(st), st)
    case GetProductById => Outcome(ById(st, IdParam(req.path)), st)
    case UpdateProduct => Update(st, svc, IdParam(req.path), req.body, ctx.stored)
    case DeleteProduct => Delete(st, IdParam(req.path))
    case AssignProduct => Assign(st, svc, req.body, ctx.errors)
  }

  /** A request to the product router, end to end. Users are never changed,
      and a request without an Authorization header changes nothing. */
  function Serve(st: State, svc: Services, env: Env, req: Request): (o: Outcome)
    requires Consistent(env, st)
    ensures o.after.users == st.users
    ensures Resolve(Routes, req.verb, req.path).None? ==> o == Outcome(Reply(NotFound, NoRoute), st)
    ensures Resolve(Routes, req.verb, req.path).Some? && !Truthy(req.authorization) ==>
              o == Outcome(Say(Unauthorized, "Access denied"), st)
  {
    match Resolve(Routes, req.verb, req.path)
    case None => Outcome(Reply(NotFound, NoRoute), st)
    case Some(k) =>
      StagesAdmit(k, req, svc, env.storedName, st.uploads);
      var route := Routes[k];
      match Run(route.stages, req, svc, env.storedName, Fresh, st.uploads)
      case Stopped(reply, files) => Outcome(reply, st.(uploads := files))
      case Reached(ctx, files) => Dispatch(route.handler, st.(uploads := files), svc, env, req, ctx)
  }

  /** A request whose route's stages all call `next()` gets that route's
      handler. */
  lemma ServeThrough(st: State, svc: Services, env: Env, req: Request, k: nat, ctx: Ctx, files: set<FileName>)
    requires Consistent(env, st)
    requires Resolve(Routes, req.verb, req.path) == Some(k)
    requires Run(Routes[k].stages, req, svc, env.storedName, Fresh, st.uploads) == Reached(ctx, files)
    ensures ctx.user.Some? && (ctx.stored.Some? ==> ctx.stored.value in files)
    ensures Serve(st, svc, env, req) == Dispatch(Routes[k].handler, st.(uploads := files), svc, env, req, ctx)
  {
    StagesAdmit(k, req, svc, env.storedName, st.uploads);
  }

  /** The stages of a route that only checks the token. */
  lemma SignedIn(k: nat, req: Request, svc: Services, storedName: FileName, uploads: set<FileName>)
    requires k < |Routes| && Routes[k].stages == [AuthUser]
    requires Credential(req.authorization, svc).Some?
    ensures Run(Routes[k].stages, req, svc, storedName, Fresh, uploads) ==
              Reached(Fresh.(user := Credential(req.authorization, svc)), uploads)
  {
    RunThrough(AuthUser, [], req, svc, storedName, Fresh, uploads);
    assert Routes[k].stages == [AuthUser] + [];
  }

  lemma ServePreservesValid(st: State, svc: Services, env: Env, req: Request)
    requires ValidState(st)
    requires Consistent(env, st)
    ensures ValidState(Serve(st, svc, env, req).after)
  {
    var k := Resolve(Routes, req.verb, req.path);
    if k.Some? {
      RoutesAreGuarded();
      var route := Routes[k.value];
      var p := Run(route.stages, req, svc, env.storedName, Fresh, st.uploads);
      if p.Reached? {
        var st' := st.(uploads := p.uploads);
        var caller := p.ctx.user.value;
        match route.handler
        case CreateProduct => CreatePreservesValid(st', svc, caller, req.body, p.ctx.stored, p.ctx.errors, env.newId);
        case UpdateProduct => UpdatePreservesValid(st', svc, IdParam(req.path), req.body, p.ctx.stored);
        case DeleteProduct => DeletePreservesValid(st', IdParam(req.path));
        case AssignProduct => AssignPreservesValid(st', svc, req.body, p.ctx.errors);
        case _ =>
      }
    }
  }

  /** `GET /categories` reaches getCategories, not getProductById. */
  lemma CategoriesBeforeId(st: State, svc: Services, env: Env, req: Request)
    requires Consistent(env, st)
    requires req.verb == GET && req.path == ["categories"]
    requires Credential(req.authorization, svc).Some?
    ensures Serve(st, svc, env, req) == Outcome(Categories(st), st)
  {
    ResolveFirst(Routes, GET, ["categories"], 2);
  }

  /** Creating a product without an image is refused by compressImage before
      the validators run. */
  lemma CreateNeedsImage(st: State, svc: Services, env: Env, req: Request)
    requires Consistent(env, st)
    requires req.verb == POST && req.path == [] && req.upload.None?
    requires Credential(req.authorization, svc).Some?
    ensures Serve(st, svc, env, req) == Outcome(Reply(BadRequest, Problem("Image is required")), st)
  {
    ResolveFirst(Routes, POST, [], 0);
    var authed := Fresh.(user := Credential(req.authorization, svc));
    assert Routes[0].stages == [AuthUser] + ([Receive("logo")] + ([Compress] + [Validate(CreateRules)]));
    RunThrough(AuthUser, [Receive("logo")] + ([Compress] + [Validate(CreateRules)]), req, svc, env.storedName, Fresh, st.uploads);
    RunThrough(Receive("logo"), [Compress] + [Validate(CreateRules)], req, svc, env.storedName, authed, st.uploads);
    RunThrough(Compress, [Validate(CreateRules)], req, svc, env.storedName, authed, st.uploads);
  }

  /** With a decodable image in `logo`, the create route's stages
      authenticate, store the image and record the validators' messages. */
  lemma CreateStagesWithImage(st: State, svc: Services, env: Env, req: Request)
    requires req.upload == Some(Upload("logo", true))
    requires Credential(req.authorization, svc).Some?
    ensures Run(Routes[0].stages, req, svc, env.storedName, Fresh, st.uploads) ==
              Reached(Ctx(Credential(req.authorization, svc), req.upload, Some(env.storedName), Errors(CreateRules, req.body, svc)),
                      st.uploads + {env.storedName})
  {
    assert Routes[0].stages == [AuthUser, Receive("logo"), Compress, Validate(CreateRules)];
    RequiredUploadWithImage("logo", CreateRules, req, svc, env.storedName, st.uploads);
  }

  /** The validators of the create route run after the image is stored;
      when they fail, createProduct removes the file again and answers with
      their messages. */
  lemma CreateValidationAfterStore(st: State, svc: Services, env: Env, req: Request)
    requires Consistent(env, st)
    requires req.verb == POST && req.path == [] && req.upload == Some(Upload("logo", true))
    requires Credential(req.authorization, svc).Some?
    requires Errors(CreateRules, req.body, svc) != []
    ensures Serve(st, svc, env, req) == Outcome(Reply(BadRequest, FieldErrors(Errors(CreateRules, req.body, svc))), st)
  {
    ResolveFirst(Routes, POST, [], 0);
    CreateStagesWithImage(st, svc, env, req);
    var files := st.uploads + {env.storedName};
    var errs := Errors(CreateRules, req.body, svc);
    ServeThrough(st, svc, env, req, 0, Ctx(Credential(req.authorization, svc), req.upload, Some(env.storedName), errs), files);
    assert Serve(st, svc, env, req) ==
             Create(st.(uploads := files), svc, Credential(req.authorization, svc).value, req.body, Some(env.storedName), errs, env.newId);
    assert files - {env.storedName} == st.uploads;
  }

  /** A create request that does not end in 201 leaves the database and
      the upload directory as they were. */
  lemma FailedCreateChangesNothing(st: State, svc: Services, env: Env, req: Request)
    requires Consistent(env, st)
    requires req.verb == POST && req.path == []
    requires Serve(st, svc, env, req).reply.status != Created
    ensures Serve(st, svc, env, req).after == st
  {
    RoutesAreGuarded();
    var p := Run(Routes[0].stages, req, svc, env.storedName, Fresh, st.uploads);
    if p.Reached? {
      assert p.ctx.stored.Some? ==> p.uploads - {p.ctx.stored.value} == st.uploads;
    }
  }

  /** Without a file, the update route's stages only authenticate and
      record the validators' messages. */
  lemma UpdateStagesWithoutFile(st: State, svc: Services, env: Env, req: Request)
    requires req.upload.None?
    requires Credential(req.authorization, svc).Some?
    ensures Run(Routes[4].stages, req, svc, env.storedName, Fresh, st.uploads) ==
              Reached(Fresh.(user := Credential(req.authorization, svc), errors := Errors(UpdateRules, req.body, svc)), st.uploads)
  {
    assert Routes[4].stages == [AuthUser, Receive("logo"), CompressIfFile, Validate(UpdateRules)];
    OptionalUploadWithoutFile("logo", UpdateRules, req, svc, env.storedName, st.uploads);
  }

  /** The update route's validators are never consulted: without a new
      image the request is exactly updateProduct on the body as sent. */
  lemma UpdateIgnoresValidators(st: State, svc: Services, env: Env, req: Request)
    requires Consistent(env, st)
    requires req.verb == PUT && |req.path| == 1 && req.upload.None?
    requires Credential(req.authorization, svc).Some?
    ensures Serve(st, svc, env, req) == Update(st, svc, req.path[0], req.body, None)
  {
    ResolveFirst(Routes, PUT, req.path, 4);
    UpdateStagesWithoutFile(st, svc, env, req);
    var ctx := Fresh.(user := Credential(req.authorization, svc), errors := Errors(UpdateRules, req.body, svc));
    ServeThrough(st, svc, env, req, 4, ctx, st.uploads);
    assert Routes[4].handler == UpdateProduct && st.(uploads := st.uploads) == st;
    assert IdParam(req.path) == req.path[0] && ctx.stored == None;
  }

  /** Only an admin reaches assignProduct; any other valid token gets 403. */
  lemma AssignNeedsAdmin(st: State, svc: Services, env: Env, req: Request)
    requires Consistent(env, st)
    requires req.verb == POST && req.path == ["assign"]
    requires Credential(req.authorization, svc).Some? && !IsAdmin(Credential(req.authorization, svc).value)
    ensures Serve(st, svc, env, req) == Outcome(Say(Forbidden, "Access denied"), st)
  {
    ResolveFirst(Routes, POST, ["assign"], 6);
  }

  /** Reading, updating and deleting a product by id check the token but not
      the role or the assignment: any signed-in user may delete any product. */
  lemma AnyUserDeletesAnyProduct(st: State, svc: Services, env: Env, req: Request)
    requires Consistent(env, st)
    requires req.verb == DELETE && |req.path| == 1 && req.path[0] in st.products
    requires st.products[req.path[0]].logo == "" || st.products[req.path[0]].logo in st.uploads
    requires Credential(req.authorization, svc).Some?
    ensures Serve(st, svc, env, req).reply == Say(Ok, "Product deleted successfully")
    ensures req.path[0] !in Serve(st, svc, env, req).after.products
  {
    ResolveFirst(Routes, DELETE, req.path, 5);
    SignedIn(5, req, svc, env.storedName, st.uploads);
    ServeThrough(st, svc, env, req, 5, Fresh.(user := Credential(req.authorization, svc)), st.uploads);
    assert st.(uploads := st.uploads) == st;
  }

  /** The database-object version: the route's stages, then the controller
      method for its handler. */
  method HandleRequest(db: Db, svc: Services, env: Env, req: Request) returns (reply: Reply)
    requires db.Valid()
    requires Consistent(env, db.Model())
    modifies db
    ensures db.Valid()
    ensures Outcome(reply, db.Model()) == Serve(old(db.Model()), svc, env, req)
  {
    var k := Resolve(Routes, req.verb, req.path);
    if k.None? {
      return Reply(NotFound, NoRoute);
    }
    RoutesAreGuarded();
    var route := Routes[k.value];
    var progress := Run(route.stages, req, svc, env.storedName, Fresh, db.uploads);
    db.uploads := progress.uploads;
    if progress.Stopped? {
      return progress.reply;
    }
    var ctx := progress.ctx;
    var caller := ctx.user.value;
    match route.handler {
      case CreateProduct =>
        reply := ProductController.CreateProduct(db, svc, caller, req.body, ctx.stored, ctx.errors, env.newId);
      case GetProducts =>
        reply := List(db.Model(), env.productsSorted, caller, req.query, svc);
      case GetCategories =>
        reply := Categories(db.Model());
      case GetProductById =>
        reply := ById(db.Model(), IdParam(req.path));
      case UpdateProduct =>
        reply := ProductController.UpdateProduct(db, svc, IdParam(req.path), req.body, ctx.stored);
      case DeleteProduct =>
        reply := ProductController.DeleteProduct(db, IdParam(req.path));
      case AssignProduct =>
        reply := ProductController.AssignProduct(db, svc, req.body, ctx.errors);
    }
  }
}

=== FILE: sequences.dfy ===
/** Sequence operations behind the list endpoints: the sort direction, the
    skip/limit window and the link between an enumeration and a key set. */
module Sequences {

  predicate Distinct<T(==)>(s: seq<T>) {
    forall i, j :: 0 <= i < j < |s| ==> s[i] != s[j]
  }

  predicate Increasing(idx: seq<int>) {
    forall i, j :: 0 <= i < j < |idx| ==> idx[i] < idx[j]
  }

  /** `idx` places the entries of `r` in `s` at strictly increasing
      positions: `r` is `s` with some entries left out, the rest in order. */
  predicate Embeds<T(==)>(r: seq<T>, s: seq<T>, idx: seq<int>) {
    && |idx| == |r|
    && (forall i :: 0 <= i < |idx| ==> 0 <= idx[i] < |s| && s[idx[i]] == r[i])
    && Increasing(idx)
  }

  function Shift(idx: seq<int>): (r: seq<int>)
    ensures |r| == |idx| && forall i :: 0 <= i < |idx| ==> r[i] == idx[i] + 1
  {
    seq(|idx|, i requires 0 <= i < |idx| => idx[i] + 1)
  }

  /** An embedding of a selection of the tail of `s`, with the head of `s`
      kept in front. */
  lemma EmbedsCons<T>(x: T, r: seq<T>, s: seq<T>, idx: seq<int>)
    requires Embeds(r, s, idx)
    ensures Embeds([x] + r, [x] + s, [0] + Shift(idx))
  {
    var r', s', idx' := [x] + r, [x] + s, [0] + Shift(idx);
    forall i | 0 <= i < |idx'|
      ensures 0 <= idx'[i] < |s'| && s'[idx'[i]] == r'[i]
    {
      if i > 0 {
        assert idx'[i] == idx[i - 1] + 1 && r'[i] == r[i - 1];
      }
    }
  }

  /** An embedding into the tail of `s` is one into `s`. */
  lemma EmbedsSkip<T>(x: T, r: seq<T>, s: seq<T>, idx: seq<int>)
    requires Embeds(r, s, idx)
    ensures Embeds(r, [x] + s, Shift(idx))
  {
  }

  /** A sequence embedded in one without repeats has no repeats. */
  lemma EmbedsDistinct<T>(r: seq<T>, s: seq<T>, idx: seq<int>)
    requires Embeds(r, s, idx) && Distinct(s)
    ensures Distinct(r)
  {
    forall i, j | 0 <= i < j < |r|
      ensures r[i] != r[j]
    {
      assert s[idx[i]] == r[i] && s[idx[j]] == r[j] && idx[i] < idx[j];
    }
  }

  /** `order` lists every key of `keys` exactly once: what a query over the
      whole collection sorted by some key returns. */
  ghost predicate Enumerates<T(!new)>(order: seq<T>, keys: set<T>) {
    Distinct(order) && forall k :: k in order <==> k in keys
  }

  /** The same enumeration in the opposite direction. */
  function Reverse<T>(s: seq<T>): (r: seq<T>)
    ensures |r| == |s|
    ensures forall i :: 0 <= i < |s| ==> r[i] == s[|s| - 1 - i]
    decreases |s|
  {
    if s == [] then [] else Reverse(s[1..]) + [s[0]]
  }

  lemma ReverseEnumerates<T(!new)>(s: seq<T>, keys: set<T>)
    requires Enumerates(s, keys)
    ensures Enumerates(Reverse(s), keys)
  {
    var r := Reverse(s);
    forall k | k in r
      ensures k in s
    {
      var i :| 0 <= i < |r| && r[i] == k;
      assert s[|s| - 1 - i] == k;
    }
    forall k | k in s
      ensures k in r
    {
      var i :| 0 <= i < |s| && s[i] == k;
      assert r[|s| - 1 - i] == k;
    }
  }

  /** `.skip(skip).limit(limit)`, where a limit of 0 means no limit: element i
      of the window is element `skip + i` of the input. */
  function Window<T>(s: seq<T>, skip: nat, limit: nat): (r: seq<T>)
    ensures |r| == if skip >= |s| then 0 else if limit == 0 || skip + limit > |s| then |s| - skip else limit
    ensures forall i :: 0 <= i < |r| ==> r[i] == s[skip + i]
  {
    if skip >= |s| then []
    else if limit == 0 || skip + limit > |s| then s[skip..]
    else s[skip..skip + limit]
  }

  /** `sort({ [sort]: order === 'desc' ? -1 : 1 })` applied to the ascending
      enumeration: only the exact string "desc" reverses it. */
  function Arranged<T>(ascending: seq<T>, order: string): (r: seq<T>)
    ensures order == "desc" ==> r == Reverse(ascending)
    ensures order != "desc" ==> r == ascending
  {
    if order == "desc" then Reverse(ascending) else ascending
  }

  lemma ArrangedEnumerates<T(!new)>(ascending: seq<T>, order: string, keys: set<T>)
    requires Enumerates(ascending, keys)
    ensures Enumerates(Arranged(ascending, order), keys)
  {
    if order == "desc" {
      ReverseEnumerates(ascending, keys);
    }
  }

  /** An enumeration has exactly as many entries as the set has keys. */
  lemma {:induction false} EnumerationLength<T(!new)>(order: seq<T>, keys: set<T>)
    requires Enumerates(order, keys)
    ensures |order| == |keys|
    decreases |order|
  {
    if order == [] {
      assert forall k :: k !in keys;
    } else {
      var rest := keys - {order[0]};
      assert forall j :: 0 <= j < |order[1..]| ==> order[1..][j] == order[j + 1] != order[0];
      assert forall k :: k in order[1..] <==> k in rest by {
        forall k
          ensures k in order[1..] <==> k in rest
        {
          if k in rest {
            assert k in order && k != order[0];
            var i :| 0 <= i < |order| && order[i] == k;
            assert order[1..][i - 1] == k;
          }
        }
      }
      EnumerationLength(order[1..], rest);
    }
  }
}

=== FILE: store.dfy ===
/** The backend's persistent state: the product and user collections and the
    upload directory, with the replies a request handler produces. */
module Store {
  import opened Common
  import opened ProductModel
  import opened UserModel

  /** The body of a reply. */
  datatype Payload =
    | Message(text: string)
    | FieldErrors(messages: seq<string>)     // `{ errors: errors.array() }`
    | Thrown(fault: Fault)                   // `{ message: err.message }`
    | ProductPage(ids: seq<ProductId>, total: nat)
    | ProductDoc(product: Option<Product>)   // `res.json(product)`, possibly `null`
    | CategoryList(categories: set<string>)
    | UserPage(users: seq<PublicUser>, total: nat)
    | Profile(me: PublicUser)
    | LoggedIn(token: string, account: User)
    | Problem(error: string)                 // `{ error: ... }`, from compressImage
    | NoRoute                                // Express's own 404 page: no route matched

  datatype Reply = Reply(status: Status, payload: Payload)

  function Say(status: Status, text: string): Reply {
    Reply(status, Message(text))
  }

  function Fail(fault: Fault): Reply {
    Reply(InternalError, Thrown(fault))
  }

  /** A snapshot of everything a request can change. */
  datatype State = State(
    products: map<ProductId, Product>,
    users: map<UserId, User>,
    uploads: set<FileName>)

  /** The collection invariants the handlers maintain. */
  predicate ValidState(st: State) {
    ValidTable(st.products) && EmailsUnique(st.users)
  }

  /** A handler's reply together with the state it leaves behind. */
  datatype Outcome = Outcome(reply: Reply, after: State)

  /** `fs.unlinkSync(req.file.path)` for the upload of this request, if any. */
  function Unlink(files: set<FileName>, file: Option<FileName>): set<FileName> {
    if file.Some? then files - {file.value} else files
  }

  /** The database and the upload directory as one mutable object; the
      controllers update its fields step by step. */
  class Db {
    var products: map<ProductId, Product>
    var users: map<UserId, User>
    var uploads: set<FileName>

    function Model(): State
      reads this
    {
      State(products, users, uploads)
    }

    ghost predicate Valid()
      reads this
    {
      ValidState(Model())
    }

    constructor ()
      ensures Model() == State(map[], map[], {})
      ensures Valid()
    {
      products := map[];
      users := map[];
      uploads := {};
    }
  }
}

=== FILE: user_controller.dfy ===
/** The state-changing handlers of controllers/userController.js, written
    step by step over the database object and proved to follow the functions
    of UserDirectory. The read-only handlers (`loginUser`, `getUsers`,
    `getCurrentUser`) are those functions. */
module UserController {
  import opened Common
  import opened UserModel
  import opened Store
  import opened Sequences
  import opened UserDirectory

  method RegisterUser(db: Db, svc: Services, natural: seq<UserId>, body: Body, errors: seq<string>,
                      newId: UserId, saved: bool) returns (reply: Reply)
    requires db.Valid()
    requires Enumerates(natural, db.users.Keys)
    modifies db
    ensures db.Valid()
    ensures Outcome(reply, db.Model()) == Register(old(db.Model()), svc, natural, body, errors, newId, saved)
  {
    RegisterPreservesValid(db.Model(), svc, natural, body, errors, newId, saved);
    if errors != [] {
      return Reply(BadRequest, FieldErrors(errors));
    }
    var existing := FindOne(natural, db.users, Field(body, "email"));
    if existing.Some? {
      return Say(BadRequest, "User already exists");
    }
    var password := Field(body, "password");
    if password.None? {
      return Fail(IllegalArguments);
    }
    var user := Newcomer(body, svc.hash(password.value));
    if newId in db.users || !saved {
      return Fail(SaveRejected);
    }
    db.users := db.users[newId := user];
    reply := Say(Created, "User registered successfully");
  }

  method UploadProfilePicture(db: Db, caller: Claims, file: Option<FileName>, saved: bool) returns (reply: Reply)
    requires db.Valid()
    requires file.Some? ==> file.value in db.uploads
    modifies db
    ensures db.Valid()
    ensures Outcome(reply, db.Model()) == UploadProfile(old(db.Model()), caller, file, saved)
  {
    UploadProfilePreservesValid(db.Model(), caller, file, saved);
    if caller.id !in db.users {
      return Say(NotFound, "User not found");
    }
    var user := db.users[caller.id];
    if Truthy(user.profile) && user.profile.value in db.uploads {
      db.uploads := db.uploads - {user.profile.value};
    }
    if file.None? {
      return Fail(NoUploadedFile);
    }
    user := user.(profile := file);
    if !saved {
      db.uploads := db.uploads - {file.value};
      return Fail(SaveRejected);
    }
    db.users := db.users[caller.id := user];
    reply := Say(Ok, "Profile picture uploaded successfully");
  }

  method UpdateUser(db: Db, caller: Claims, body: Body, saved: bool) returns (reply: Reply)
    requires db.Valid()
    modifies db
    ensures db.Valid()
    ensures Outcome(reply, db.Model()) == UpdateSelf(old(db.Model()), caller, body, saved)
  {
    UpdateSelfPreservesValid(db.Model(), caller, body, saved);
    if caller.id !in db.users {
      return Say(NotFound, "User not found");
    }
    var user := db.users[caller.id];
    user := user.(name := OrElse(Field(body, "name"), user.name));
    if !saved {
      return Fail(SaveRejected);
    }
    db.users := db.users[caller.id := user];
    reply := Say(Ok, "User updated successfully");
  }

  method UpdatePassword(db: Db, svc: Services, caller: Claims, body: Body, saved: bool) returns (reply: Reply)
    requires db.Valid()
    modifies db
    ensures db.Valid()
    ensures Outcome(reply, db.Model()) == ChangePassword(old(db.Model()), svc, caller, body, saved)
  {
    ChangePasswordPreservesValid(db.Model(), svc, caller, body, saved);
    var oldPassword := Field(body, "oldPassword");
    var newPassword := Field(body, "newPassword");
    if caller.id !in db.users {
      return Say(NotFound, "User not found");
    }
    var user := db.users[caller.id];
    if oldPassword.None? {
      return Fail(IllegalArguments);
    }
    if !svc.compare(oldPassword.value, user.password) {
      return Say(BadRequest, "Invalid old password");
    }
    if newPassword.None? {
      return Fail(IllegalArguments);
    }
    user := user.(password := svc.hash(newPassword.value));
    if !saved {
      return Fail(SaveRejected);
    }
    db.users := db.users[caller.id := user];
    reply := Say(Ok, "Password updated successfully");
  }
}

=== FILE: user_directory.dfy ===
/** What each handler of controllers/userController.js does to the state, as
    functions from the state before the request to the reply and the state
    after it. The methods of UserController are proved to follow these.
    models/User.js is not part of this model, so whether a user document
    passes its schema on `save()` is the parameter `saved`. */
module UserDirectory {
  import opened Common
  import opened UserModel
  import opened Store
  import opened Sequences
  import opened AuthMiddleware

  /** Some user is selected by `{ email }`. */
  predicate Known(users: map<UserId, User>, email: Option<string>) {
    exists id :: id in users && Fits(users[id], email)
  }

  // ----- registerUser -----

  /** The document `registerUser` builds from `{ name, email, password, role }`,
      with the password already hashed; a missing text field is kept as `""`
      and there is no profile picture yet. */
  function Newcomer(body: Body, hashed: string): (u: User)
    ensures u.password == hashed && u.profile.None?
    ensures u.name == Field(body, "name").GetOr("")
    ensures u.email == Field(body, "email").GetOr("")
    ensures u.role == Field(body, "role").GetOr("")
  {
    User(Field(body, "name").GetOr(""), Field(body, "email").GetOr(""), hashed, Field(body, "role").GetOr(""), None)
  }

  /** `registerUser`. `natural` is the collection in its natural order,
      `newId` the id the new document gets. Nothing changes unless the
      reply is 201, and then only the one new user is added. */
  function Register(st: State, svc: Services, natural: seq<UserId>, body: Body, errors: seq<string>,
                    newId: UserId, saved: bool): (o: Outcome)
    requires Enumerates(natural, st.users.Keys)
    ensures o.reply.status in {Created, BadRequest, InternalError}
    ensures o.reply.status != Created ==> o.after == st
    ensures errors != [] ==> o.reply == Reply(BadRequest, FieldErrors(errors))
    ensures errors == [] ==>
              (o.reply == Say(BadRequest, "User already exists") <==> Known(st.users, Field(body, "email")))
    ensures errors == [] && !Known(st.users, Field(body, "email")) && Field(body, "password").None? ==>
              o.reply == Fail(IllegalArguments)
    ensures o.reply.status == Created <==>
              errors == [] && !Known(st.users, Field(body, "email")) && Field(body, "password").Some? &&
              newId !in st.users && saved
    ensures o.reply.status == Created ==>
              && saved
              && newId !in st.users
              && Field(body, "password").Some?
              && o.after == st.(users := st.users[newId := Newcomer(body, svc.hash(Field(body, "password").value))])
              && forall id :: id in st.users ==> st.users[id].email != o.after.users[newId].email
  {
    if errors != [] then Outcome(Reply(BadRequest, FieldErrors(errors)), st)
    else if FindOne(natural, st.users, Field(body, "email")).Some? then Outcome(Say(BadRequest, "User already exists"), st)
    else
      match Field(body, "password")
      case None => Outcome(Fail(IllegalArguments), st)
      case Some(password) =>
        if newId in st.users || !saved then Outcome(Fail(SaveRejected), st)
        else
          assert forall id :: id in st.users ==> id in natural;
          Outcome(Say(Created, "User registered successfully"),
                  st.(users := st.users[newId := Newcomer(body, svc.hash(password))]))
  }

  lemma RegisterPreservesValid(st: State, svc: Services, natural: seq<UserId>, body: Body, errors: seq<string>,
                               newId: UserId, saved: bool)
    requires ValidState(st)
    requires Enumerates(natural, st.users.Keys)
    ensures ValidState(Register(st, svc, natural, body, errors, newId, saved).after)
  {
    var o := Register(st, svc, natural, body, errors, newId, saved);
    if o.reply.status == Created {
      forall a, b | a in o.after.users && b in o.after.users && a != b
        ensures o.after.users[a].email != o.after.users[b].email
      {
        if a != newId && b != newId {
          assert o.after.users[a] == st.users[a] && o.after.users[b] == st.users[b];
        }
      }
    }
  }

  // ----- loginUser -----

  /** `loginUser`: an unknown email and a wrong password get the same 400
      reply; a success answers with a token for `{ id, role }` and the whole
      user document, password hash included. */
  function Login(st: State, svc: Services, natural: seq<UserId>, body: Body, errors: seq<string>): (r: Reply)
    requires Enumerates(natural, st.users.Keys)
    ensures r.status in {Ok, BadRequest, InternalError}
    ensures errors != [] ==> r == Reply(BadRequest, FieldErrors(errors))
    ensures errors == [] && r.status == BadRequest ==> r == Say(BadRequest, "Invalid credentials")
    ensures errors == [] && !Known(st.users, Field(body, "email")) ==> r == Say(BadRequest, "Invalid credentials")
    ensures r.status == InternalError ==> r == Fail(IllegalArguments) && Field(body, "password").None?
    ensures r.status == Ok ==>
              && errors == []
              && Field(body, "password").Some?
              && exists id :: id in st.users && Fits(st.users[id], Field(body, "email"))
                              && svc.compare(Field(body, "password").value, st.users[id].password)
                              && r.payload == LoggedIn(svc.sign(Claims(id, st.users[id].role)), st.users[id])
  {
    if errors != [] then Reply(BadRequest, FieldErrors(errors))
    else
      match FindOne(natural, st.users, Field(body, "email"))
      case None => Say(BadRequest, "Invalid credentials")
      case Some(id) =>
        match Field(body, "password")
        case None => Fail(IllegalArguments)
        case Some(password) =>
          if !svc.compare(password, st.users[id].password) then Say(BadRequest, "Invalid credentials")
          else Reply(Ok, LoggedIn(svc.sign(Claims(id, st.users[id].role)), st.users[id]))
  }

  /** With unique emails, the email of an existing user logs in exactly when
      bcrypt accepts the password against that user's stored hash. */
  lemma LoginIffPasswordMatches(st: State, svc: Services, natural: seq<UserId>, body: Body, id: UserId, password: string)
    requires ValidState(st)
    requires Enumerates(natural, st.users.Keys)
    requires id in st.users
    requires Field(body, "email") == Some(st.users[id].email) && Field(body, "password") == Some(password)
    ensures Login(st, svc, natural, body, []).status == Ok <==> svc.compare(password, st.users[id].password)
    ensures Login(st, svc, natural, body, []).status == Ok ==>
              Login(st, svc, natural, body, []).payload == LoggedIn(svc.sign(Claims(id, st.users[id].role)), st.users[id])
  {
    FoundIsOwner(natural, st.users, id);
  }

  /** The token a login hands out is admitted by the authentication
      middleware as the logged-in user with that user's role. */
  lemma LoginTokenAuthenticates(st: State, svc: Services, natural: seq<UserId>, body: Body, errors: seq<string>)
    requires TokenSound(svc)
    requires Enumerates(natural, st.users.Keys)
    requires Login(st, svc, natural, body, errors).status == Ok
    ensures var r := Login(st, svc, natural, body, errors);
            exists id :: id in st.users && r.payload.LoggedIn? &&
                         Authenticate(Some("Bearer " + r.payload.token), svc) == Admitted(Claims(id, st.users[id].role))
  {
    var r := Login(st, svc, natural, body, errors);
    var id :| id in st.users && r.payload == LoggedIn(svc.sign(Claims(id, st.users[id].role)), st.users[id]);
    SignedTokenAdmitted(svc, Claims(id, st.users[id].role));
  }

  /** A user an admin has just registered can log in with the email and the
      password given at registration, and is known by the new id and the
      given role. */
  lemma RegisteredUserCanLogIn(st: State, svc: Services, natural: seq<UserId>, body: Body, errors: seq<string>,
                               newId: UserId, saved: bool, natural': seq<UserId>, credentials: Body)
    requires ValidState(st)
    requires HashSound(svc)
    requires Enumerates(natural, st.users.Keys)
    requires Register(st, svc, natural, body, errors, newId, saved).reply.status == Created
    requires Enumerates(natural', Register(st, svc, natural, body, errors, newId, saved).after.users.Keys)
    requires Field(body, "email").Some? && Field(credentials, "email") == Field(body, "email")
    requires Field(credentials, "password") == Field(body, "password")
    ensures var after := Register(st, svc, natural, body, errors, newId, saved).after;
            Login(after, svc, natural', credentials, []) ==
              Reply(Ok, LoggedIn(svc.sign(Claims(newId, Field(body, "role").GetOr(""))), after.users[newId]))
  {
    var after := Register(st, svc, natural, body, errors, newId, saved).after;
    RegisterPreservesValid(st, svc, natural, body, errors, newId, saved);
    LoginIffPasswordMatches(after, svc, natural', credentials, newId, Field(body, "password").value);
  }

  // ----- getUsers -----

  /** `.select("-password")` over an enumeration of users. */
  function Views(order: seq<UserId>, users: map<UserId, User>): (r: seq<PublicUser>)
    requires forall id :: id in order ==> id in users
    ensures |r| == |order|
    ensures forall i :: 0 <= i < |order| ==> r[i] == View(order[i], users[order[i]])
    decreases |order|
  {
    if order == [] then []
    else
      assert forall id :: id in order[1..] ==> id in order;
      [View(order[0], users[order[0]])] + Views(order[1..], users)
  }

  /** The skip `(page - 1) * limit` is negative exactly for a page below 1
      with a positive limit. */
  lemma SkipSign(page: int, limit: nat)
    ensures (page - 1) * limit < 0 <==> limit > 0 && page < 1
  {
    if limit > 0 && page < 1 {
      assert (page - 1) * limit <= -(limit as int);
    } else if limit > 0 {
      assert (page - 1) * limit >= 0;
    }
  }

  /** `(page - 1) * limit`, the number of users skipped. */
  function Offset(page: int, limit: nat): (skip: int)
    ensures skip < 0 <==> limit > 0 && page < 1
  {
    SkipSign(page, limit);
    (page - 1) * limit
  }

  /** `getUsers`. `ascending` is the collection sorted by the `sort` key.
      Only a non-empty `limit` parameter windows the list, and `page` is not
      clamped: a page below 1 with a positive limit asks for a negative skip,
      which the query refuses. `total` counts every user. */
  function ListUsers(st: State, ascending: seq<UserId>, q: Query): (r: Reply)
    requires Enumerates(ascending, st.users.Keys)
    ensures r.status in {Ok, InternalError}
    ensures r.status == InternalError <==>
              q.limit == LimitNaN || (q.limit.LimitNumber? && q.limit.n > 0 && q.page.GetOr(1) < 1)
    ensures r.status == InternalError ==> r == Fail(QueryRejected)
    ensures r.status == Ok ==>
              && r.payload.UserPage?
              && r.payload.total == |st.users|
              && forall i :: 0 <= i < |r.payload.users| ==>
                   r.payload.users[i].id in st.users &&
                   r.payload.users[i] == View(r.payload.users[i].id, st.users[r.payload.users[i].id])
  {
    var arranged := Arranged(ascending, q.order);
    assert forall id :: id in arranged ==> id in ascending;
    var all := Views(arranged, st.users);
    assert forall j :: 0 <= j < |all| ==> all[j].id in st.users && all[j] == View(all[j].id, st.users[all[j].id]);
    match q.limit
    case NoLimit => Reply(Ok, UserPage(all, |st.users|))
    case LimitNaN => Fail(QueryRejected)
    case LimitNumber(n) =>
      var skip := Offset(q.page.GetOr(1), n);
      if skip < 0 then Fail(QueryRejected)
      else Reply(Ok, UserPage(Window(all, skip, n), |st.users|))
  }

  /** Without a `limit` parameter every user is listed, once each, in the
      requested order. */
  lemma EveryUserListed(st: State, ascending: seq<UserId>, q: Query)
    requires Enumerates(ascending, st.users.Keys)
    requires q.limit == NoLimit
    ensures var r := ListUsers(st, ascending, q);
            && |r.payload.users| == r.payload.total
            && forall id :: id in st.users ==> exists i :: 0 <= i < |r.payload.users| && r.payload.users[i].id == id
  {
    var arranged := Arranged(ascending, q.order);
    ArrangedEnumerates(ascending, q.order, st.users.Keys);
    EnumerationLength(arranged, st.users.Keys);
    var r := ListUsers(st, ascending, q);
    forall id | id in st.users
      ensures exists i :: 0 <= i < |r.payload.users| && r.payload.users[i].id == id
    {
      var i :| 0 <= i < |arranged| && arranged[i] == id;
      assert r.payload.users[i].id == id;
    }
  }

  /** With a numeric `limit` and a skip that is not negative, the page is
      the users in the requested order cut at `skip = (page - 1) * limit`:
      the next `limit` of them (all the rest when the limit is 0), entry i
      being the view of the user at position `skip + i`. */
  lemma UserPageIsWindow(st: State, ascending: seq<UserId>, q: Query)
    requires Enumerates(ascending, st.users.Keys)
    requires q.limit.LimitNumber? && Offset(q.page.GetOr(1), q.limit.n) >= 0
    ensures var arranged := Arranged(ascending, q.order);
            var r := ListUsers(st, ascending, q);
            var n, l := |st.users|, q.limit.n;
            var skip := Offset(q.page.GetOr(1), l);
            && r.status == Ok
            && |r.payload.users| == (if skip >= n then 0 else if l == 0 || skip + l > n then n - skip else l)
            && forall i :: 0 <= i < |r.payload.users| ==>
                 skip + i < |arranged| && arranged[skip + i] in st.users &&
                 r.payload.users[i] == View(arranged[skip + i], st.users[arranged[skip + i]])
  {
    var arranged := Arranged(ascending, q.order);
    ArrangedEnumerates(ascending, q.order, st.users.Keys);
    EnumerationLength(arranged, st.users.Keys);
    var l := q.limit.n;
    var skip := Offset(q.page.GetOr(1), l);
    assert ListUsers(st, ascending, q) == Reply(Ok, UserPage(Window(Views(arranged, st.users), skip, l), |st.users|));
    ViewsWindow(arranged, st.users, skip, l);
  }

  /** A window of the views is the views of the same window of ids. */
  lemma ViewsWindow(order: seq<UserId>, users: map<UserId, User>, skip: nat, limit: nat)
    requires forall id :: id in order ==> id in users
    ensures var w := Window(Views(order, users), skip, limit);
            && |w| == (if skip >= |order| then 0 else if limit == 0 || skip + limit > |order| then |order| - skip else limit)
            && forall i :: 0 <= i < |w| ==>
                 skip + i < |order| && order[skip + i] in users && w[i] == View(order[skip + i], users[order[skip + i]])
  {
  }

  // ----- getCurrentUser -----

  /** `getCurrentUser`: the caller's own document without the hash. */
  function Me(st: State, caller: Claims): (r: Reply)
    ensures caller.id !in st.users ==> r == Say(NotFound, "User not found")
    ensures caller.id in st.users ==>
              && r.status == Ok && r.payload.Profile? && r.payload.me.id == caller.id
              && r.payload.me.name == st.users[caller.id].name && r.payload.me.email == st.users[caller.id].email
              && r.payload.me.role == st.users[caller.id].role && r.payload.me.profile == st.users[caller.id].profile
  {
    if caller.id !in st.users then Say(NotFound, "User not found")
    else Reply(Ok, Profile(View(caller.id, st.users[caller.id])))
  }

  // ----- uploadProfilePicture -----

  /** The old picture is unlinked when one is set and the file exists. */
  function Retired(files: set<FileName>, before: User): (r: set<FileName>)
    ensures Truthy(before.profile) ==> r == files - {before.profile.value}
    ensures !Truthy(before.profile) ==> r == files
  {
    if Truthy(before.profile) && before.profile.value in files then files - {before.profile.value} else files
  }

  /** `uploadProfilePicture`. `file` is the name compressImage stored the
      picture under. The old picture is unlinked before the save, so a
      failed save leaves the user pointing at a deleted file. */
  function UploadProfile(st: State, caller: Claims, file: Option<FileName>, saved: bool): (o: Outcome)
    requires file.Some? ==> file.value in st.uploads
    ensures o.after.products == st.products
    ensures o.reply.status in {Ok, NotFound, InternalError}
    ensures caller.id !in st.users ==> o == Outcome(Say(NotFound, "User not found"), st)
    ensures caller.id in st.users && file.None? ==>
              o == Outcome(Fail(NoUploadedFile), st.(uploads := Retired(st.uploads, st.users[caller.id])))
    ensures o.reply.status == Ok <==> caller.id in st.users && file.Some? && saved
    ensures o.reply.status == Ok ==>
              && caller.id in st.users && file.Some? && saved
              && o.after.users == st.users[caller.id := st.users[caller.id].(profile := file)]
              && o.after.uploads == Retired(st.uploads, st.users[caller.id])
    ensures o.reply.status == InternalError ==>
              && o.after.users == st.users
              && caller.id in st.users
              && o.after.uploads == Unlink(Retired(st.uploads, st.users[caller.id]), file)
  {
    if caller.id !in st.users then Outcome(Say(NotFound, "User not found"), st)
    else
      var before := st.users[caller.id];
      var files := Retired(st.uploads, before);
      if file.None? then Outcome(Fail(NoUploadedFile), st.(uploads := files))
      else if !saved then Outcome(Fail(SaveRejected), st.(uploads := Unlink(files, file)))
      else Outcome(Say(Ok, "Profile picture uploaded successfully"),
                   st.(users := st.users[caller.id := before.(profile := file)], uploads := files))
  }

  lemma UploadProfilePreservesValid(st: State, caller: Claims, file: Option<FileName>, saved: bool)
    requires ValidState(st)
    requires file.Some? ==> file.value in st.uploads
    ensures ValidState(UploadProfile(st, caller, file, saved).after)
  {
    var after := UploadProfile(st, caller, file, saved).after;
    assert forall id :: id in after.users ==> id in st.users && after.users[id].email == st.users[id].email;
  }

  /** A new picture replaces the old one: the old file is gone, the new one
      is kept and recorded. */
  lemma ProfileReplacesOld(st: State, caller: Claims, file: Option<FileName>, saved: bool)
    requires file.Some? ==> file.value in st.uploads
    requires UploadProfile(st, caller, file, saved).reply.status == Ok
    requires Truthy(st.users[caller.id].profile) && st.users[caller.id].profile != file
    ensures var after := UploadProfile(st, caller, file, saved).after;
            && st.users[caller.id].profile.value !in after.uploads
            && file.value in after.uploads
            && after.users[caller.id].profile == file
  {
  }

  /** A save that fails after the old picture was unlinked leaves the user
      record naming a file that no longer exists. */
  lemma FailedProfileSaveLeavesDanglingPicture(st: State, caller: Claims, file: FileName)
    requires file in st.uploads
    requires caller.id in st.users && Truthy(st.users[caller.id].profile)
    ensures var o := UploadProfile(st, caller, Some(file), false);
            && o.reply == Fail(SaveRejected)
            && o.after.users[caller.id].profile == st.users[caller.id].profile
            && st.users[caller.id].profile.value !in o.after.uploads
  {
  }

  // ----- updateUser -----

  /** `updateUser`: only the name can change, and an empty or missing name
      keeps the old one. */
  function UpdateSelf(st: State, caller: Claims, body: Body, saved: bool): (o: Outcome)
    ensures o.after.products == st.products && o.after.uploads == st.uploads
    ensures o.reply.status in {Ok, NotFound, InternalError}
    ensures o.reply.status != Ok ==> o.after == st
    ensures caller.id !in st.users ==> o.reply == Say(NotFound, "User not found")
    ensures o.reply.status == Ok <==> caller.id in st.users && saved
    ensures o.reply.status == Ok ==>
              && caller.id in st.users
              && o.after.users.Keys == st.users.Keys
              && (forall id :: id in st.users && id != caller.id ==> o.after.users[id] == st.users[id])
              && o.after.users[caller.id] == st.users[caller.id].(name := o.after.users[caller.id].name)
              && o.after.users[caller.id].name == OrElse(Field(body, "name"), st.users[caller.id].name)
  {
    if caller.id !in st.users then Outcome(Say(NotFound, "User not found"), st)
    else if !saved then Outcome(Fail(SaveRejected), st)
    else
      var before := st.users[caller.id];
      Outcome(Say(Ok, "User updated successfully"),
              st.(users := st.users[caller.id := before.(name := OrElse(Field(body, "name"), before.name))]))
  }

  lemma UpdateSelfPreservesValid(st: State, caller: Claims, body: Body, saved: bool)
    requires ValidState(st)
    ensures ValidState(UpdateSelf(st, caller, body, saved).after)
  {
    var after := UpdateSelf(st, caller, body, saved).after;
    assert forall id :: id in after.users ==> id in st.users && after.users[id].email == st.users[id].email;
  }

  // ----- updatePassword -----

  /** `updatePassword`: the old password must match the stored hash; the new
      one is stored hashed. */
  function ChangePassword(st: State, svc: Services, caller: Claims, body: Body, saved: bool): (o: Outcome)
    ensures o.after.products == st.products && o.after.uploads == st.uploads
    ensures o.reply.status in {Ok, BadRequest, NotFound, InternalError}
    ensures o.reply.status != Ok ==> o.after == st
    ensures caller.id !in st.users ==> o.reply == Say(NotFound, "User not found")
    ensures o.reply.status == BadRequest <==>
              caller.id in st.users && Field(body, "oldPassword").Some? &&
              !svc.compare(Field(body, "oldPassword").value, st.users[caller.id].password)
    ensures o.reply.status == BadRequest ==> o.reply == Say(BadRequest, "Invalid old password")
    ensures o.reply.status == Ok <==>
              && caller.id in st.users
              && Field(body, "oldPassword").Some?
              && svc.compare(Field(body, "oldPassword").value, st.users[caller.id].password)
              && Field(body, "newPassword").Some?
              && saved
    ensures o.reply.status == Ok ==>
              && caller.id in st.users && saved
              && Field(body, "oldPassword").Some? && Field(body, "newPassword").Some?
              && svc.compare(Field(body, "oldPassword").value, st.users[caller.id].password)
              && o.after.users == st.users[caller.id := st.users[caller.id].(password := svc.hash(Field(body, "newPassword").value))]
  {
    if caller.id !in st.users then Outcome(Say(NotFound, "User not found"), st)
    else
      var before := st.users[caller.id];
      match Field(body, "oldPassword")
      case None => Outcome(Fail(IllegalArguments), st)
      case Some(oldPassword) =>
        if !svc.compare(oldPassword, before.password) then Outcome(Say(BadRequest, "Invalid old password"), st)
        else
          match Field(body, "newPassword")
          case None => Outcome(Fail(IllegalArguments), st)
          case Some(newPassword) =>
            if !saved then Outcome(Fail(SaveRejected), st)
            else Outcome(Say(Ok, "Password updated successfully"),
                         st.(users := st.users[caller.id := before.(password := svc.hash(newPassword))]))
  }

  lemma ChangePasswordPreservesValid(st: State, svc: Services, caller: Claims, body: Body, saved: bool)
    requires ValidState(st)
    ensures ValidState(ChangePassword(st, svc, caller, body, saved).after)
  {
    var after := ChangePassword(st, svc, caller, body, saved).after;
    assert forall id :: id in after.users ==> id in st.users && after.users[id].email == st.users[id].email;
  }

  /** After a password change the user logs in with the new password. */
  lemma NewPasswordLogsIn(st: State, svc: Services, caller: Claims, body: Body, saved: bool,
                          natural: seq<UserId>, credentials: Body)
    requires ValidState(st)
    requires HashSound(svc)
    requires ChangePassword(st, svc, caller, body, saved).reply.status == Ok
    requires Enumerates(natural, st.users.Keys)
    requires Field(credentials, "email") == Some(st.users[caller.id].email)
    requires Field(credentials, "password") == Field(body, "newPassword")
    ensures var after := ChangePassword(st, svc, caller, body, saved).after;
            Login(after, svc, natural, credentials, []) ==
              Reply(Ok, LoggedIn(svc.sign(Claims(caller.id, st.users[caller.id].role)), after.users[caller.id]))
  {
    var after := ChangePassword(st, svc, caller, body, saved).after;
    ChangePasswordPreservesValid(st, svc, caller, body, saved);
    assert after.users.Keys == st.users.Keys;
    LoginIffPasswordMatches(after, svc, natural, credentials, caller.id, Field(body, "newPassword").value);
  }
}

=== FILE: user_model.dfy ===
/** The user record as the controllers use it. models/User.js is not part of
    this model: the fields below are the ones the handlers read and write. */
module UserModel {
  import opened Common

  /** A user document; `password` holds the bcrypt hash, `profile` the file
      name of the profile picture once one was uploaded. */
  datatype User = User(
    name: string,
    email: string,
    password: string,
    role: string,
    profile: Option<FileName>)

  /** A user as returned by `.select("-password")`: every field but the hash. */
  datatype PublicUser = PublicUser(
    id: UserId,
    name: string,
    email: string,
    role: string,
    profile: Option<FileName>)

  function View(id: UserId, u: User): (v: PublicUser)
    ensures v.id == id && v.name == u.name && v.email == u.email
    ensures v.role == u.role && v.profile == u.profile
  {
    PublicUser(id, u.name, u.email, u.role, u.profile)
  }

  /** No two users share an email; registration keeps it so. */
  predicate EmailsUnique(users: map<UserId, User>) {
    forall a, b :: a in users && b in users && a != b ==> users[a].email != users[b].email
  }

  /** Whether `{ email }` selects this user. Mongoose drops an `undefined`
      value from a filter, so without an email every user is selected. */
  predicate Fits(u: User, email: Option<string>) {
    email.None? || u.email == email.value
  }

  /** `User.findOne({ email })`: the first selected user in the collection's
      natural order `natural`. */
  function FindOne(natural: seq<UserId>, users: map<UserId, User>, email: Option<string>): (r: Option<UserId>)
    requires forall id :: id in natural ==> id in users
    ensures r.Some? ==> r.value in users && Fits(users[r.value], email)
    ensures r.None? <==> forall i :: 0 <= i < |natural| ==> !Fits(users[natural[i]], email)
    ensures r.Some? ==> exists i :: 0 <= i < |natural| && natural[i] == r.value &&
                                    forall j :: 0 <= j < i ==> !Fits(users[natural[j]], email)
    decreases |natural|
  {
    if natural == [] then None
    else if Fits(users[natural[0]], email) then Some(natural[0])
    else
      var r := FindOne(natural[1..], users, email);
      assert forall i :: 1 <= i < |natural| ==> natural[i] == natural[1..][i - 1];
      if r.Some? then
        var k :| 0 <= k < |natural| - 1 && natural[1..][k] == r.value &&
                 forall j :: 0 <= j < k ==> !Fits(users[natural[1..][j]], email);
        assert natural[k + 1] == r.value;
        r
      else r
  }

  /** With unique emails the user found by an email is the one holding it. */
  lemma {:induction false} FoundIsOwner(natural: seq<UserId>, users: map<UserId, User>, id: UserId)
    requires EmailsUnique(users)
    requires forall k :: k in natural <==> k in users
    requires id in users
    ensures FindOne(natural, users, Some(users[id].email)) == Some(id)
  {
    var r := FindOne(natural, users, Some(users[id].email));
    var i :| 0 <= i < |natural| && natural[i] == id;
    assert Fits(users[natural[i]], Some(users[id].email));
  }
}

=== FILE: user_routes.dfy ===
/** routes/userRoutes.js, mounted at `/api/users`: the route table, what a
    request to it does end to end, and the database-object version of it.
    `updatePassword` is neither imported by the route file nor routed. */
module UserRoutes {
  import opened Common
  import opened UserModel
  import opened Store
  import opened Sequences
  import opened AuthMiddleware
  import opened Validation
  import opened Pipeline
  import opened UserDirectory
  import UserController

  datatype Handler = RegisterUser | LoginUser | GetUsers | UploadProfilePicture | UpdateUser | GetCurrentUser

  const RegisterRules := [
    Rule("name", false, NotEmpty, "Name is required"),
    Rule("email", false, IsEmail, "Please include a valid email"),
    Rule("password", false, MinLength(6), "Password must be at least 6 characters long"),
    Rule("role", false, IsIn(["admin", "user"]), "Role must be either 'admin' or 'user'")]

  const LoginRules := [
    Rule("email", false, IsEmail, "Email is required"),
    Rule("password", false, NotEmpty, "Password is required")]

  const UpdateRules := [
    Rule("name", false, NotEmpty, "Name is required")]

  /** The routes in declaration order. */
  const Routes: seq<Route<Handler>> := [
    Route(POST, Literal("register"), [AuthAdmin, Validate(RegisterRules)], RegisterUser),
    Route(POST, Literal("login"), [Validate(LoginRules)], LoginUser),
    Route(GET, Root, [AuthAdmin], GetUsers),
    Route(POST, Literal("upload-profile-pic"), [AuthUser, Receive("profile"), Compress], UploadProfilePicture),
    Route(PUT, Literal("update"), [AuthUser, Validate(UpdateRules)], UpdateUser),
    Route(GET, Literal("me"), [AuthUser], GetCurrentUser)]

  lemma RoutesAreGuarded()
    ensures forall k :: 0 <= k < |Routes| && !Routes[k].handler.LoginUser? ==>
              |Routes[k].stages| > 0 && Guards(Routes[k].stages[0])
    ensures forall k :: 0 <= k < |Routes| && Routes[k].handler.LoginUser? ==>
              forall i :: 0 <= i < |Routes[k].stages| ==> Routes[k].stages[i].Validate?
    ensures forall k :: 0 <= k < |Routes| ==> StoresLast(Routes[k].stages)
  {
  }

  /** What a route's stages leave for its handler: a caller (except on
      `/login`) and, when an image was stored, a file that exists. */
  lemma StagesAdmit(k: nat, req: Request, svc: Services, storedName: FileName, uploads: set<FileName>)
    requires k < |Routes|
    ensures var p := Run(Routes[k].stages, req, svc, storedName, Fresh, uploads);
            p.Reached? ==> (p.ctx.user.Some? || Routes[k].handler.LoginUser?) &&
                           (p.ctx.stored.Some? ==> p.ctx.stored.value in p.uploads)
  {
    RoutesAreGuarded();
  }

  /** The handler a request reaches, with everything the stages added. */
  function Dispatch(h: Handler, st: State, svc: Services, env: Env, req: Request, ctx: Ctx): (o: Outcome)
    requires ctx.user.Some? || h.LoginUser?
    requires ctx.stored.Some? ==> ctx.stored.value in st.uploads
    requires Enumerates(env.usersSorted, st.users.Keys) && Enumerates(env.usersNatural, st.users.Keys)
    ensures o.after.products == st.products
  {
    match h
    case RegisterUser => Register(st, svc, env.usersNatural, req.body, ctx.errors, env.newId, env.saved)
    case LoginUser => Outcome(Login(st, svc, env.usersNatural, req.body, ctx.errors), st)
    case GetUsers => Outcome(ListUsers(st, env.usersSorted, req.query), st)
    case UploadProfilePicture => UploadProfile(st, ctx.user.value, ctx.stored, env.saved)
    case UpdateUser => UpdateSelf(st, ctx.user.value, req.body, env.saved)
    case GetCurrentUser => Outcome(Me(st, ctx.user.value), st)
  }

  /** A request to the user router, end to end. Products are never
      changed, and a request without an Authorization header changes
      nothing at all. */
  function Serve(st: State, svc: Services, env: Env, req: Request): (o: Outcome)
    requires Consistent(env, st)
    ensures o.after.products == st.products
    ensures Resolve(Routes, req.verb, req.path).None? ==> o == Outcome(Reply(NotFound, NoRoute), st)
    ensures !Truthy(req.authorization) ==> o.after == st
  {
    match Resolve(Routes, req.verb, req.path)
    case None => Outcome(Reply(NotFound, NoRoute), st)
    case Some(k) =>
      StagesAdmit(k, req, svc, env.storedName, st.uploads);
      var route := Routes[k];
      match Run(route.stages, req, svc, env.storedName, Fresh, st.uploads)
      case Stopped(reply, files) => Outcome(reply, st.(uploads := files))
      case Reached(ctx, files) => Dispatch(route.handler, st.(uploads := files), svc, env, req, ctx)
  }

  /** A request whose route's stages all call `next()` gets that route's
      handler. */
  lemma ServeThrough(st: State, svc: Services, env: Env, req: Request, k: nat, ctx: Ctx, files: set<FileName>)
    requires Consistent(env, st)
    requires Resolve(Routes, req.verb, req.path) == Some(k)
    requires Run(Routes[k].stages, req, svc, env.storedName, Fresh, st.uploads) == Reached(ctx, files)
    ensures ctx.user.Some? || Routes[k].handler.LoginUser?
    ensures ctx.stored.Some? ==> ctx.stored.value in files
    ensures Serve(st, svc, env, req) == Dispatch(Routes[k].handler, st.(uploads := files), svc, env, req, ctx)
  {
    StagesAdmit(k, req, svc, env.storedName, st.uploads);
  }

  lemma ServePreservesValid(st: State, svc: Services, env: Env, req: Request)
    requires ValidState(st)
    requires Consistent(env, st)
    ensures ValidState(Serve(st, svc, env, req).after)
  {
    var k := Resolve(Routes, req.verb, req.path);
    if k.Some? {
      RoutesAreGuarded();
      var route := Routes[k.value];
      var p := Run(route.stages, req, svc, env.storedName, Fresh, st.uploads);
      if p.Reached? {
        var st' := st.(uploads := p.uploads);
        match route.handler
        case RegisterUser => RegisterPreservesValid(st', svc, env.usersNatural, req.body, p.ctx.errors, env.newId, env.saved);
        case UploadProfilePicture => UploadProfilePreservesValid(st', p.ctx.user.value, p.ctx.stored, env.saved);
        case UpdateUser => UpdateSelfPreservesValid(st', p.ctx.user.value, req.body, env.saved);
        case _ =>
      }
    }
  }

  /** No handler of this router deletes a user or changes a stored password. */
  lemma DispatchKeepsPasswords(h: Handler, st: State, svc: Services, env: Env, req: Request, ctx: Ctx)
    requires ctx.user.Some? || h.LoginUser?
    requires ctx.stored.Some? ==> ctx.stored.value in st.uploads
    requires Enumerates(env.usersSorted, st.users.Keys) && Enumerates(env.usersNatural, st.users.Keys)
    ensures var after := Dispatch(h, st, svc, env, req, ctx).after;
            forall id :: id in st.users ==> id in after.users && after.users[id].password == st.users[id].password
  {
    match h
    case RegisterUser =>
      var o := Register(st, svc, env.usersNatural, req.body, ctx.errors, env.newId, env.saved);
      assert o.reply.status == Created ==> forall id :: id in st.users ==> id != env.newId;
    case UploadProfilePicture =>
      var o := UploadProfile(st, ctx.user.value, ctx.stored, env.saved);
      assert o.reply.status == Ok || o.after.users == st.users;
    case UpdateUser =>
    case _ =>
  }

  /** No request through this router deletes a user or changes a stored
      password: the handler that would, updatePassword, has no route. */
  lemma NoRequestChangesPasswords(st: State, svc: Services, env: Env, req: Request)
    requires Consistent(env, st)
    ensures var after := Serve(st, svc, env, req).after;
            forall id :: id in st.users ==> id in after.users && after.users[id].password == st.users[id].password
  {
    var k := Resolve(Routes, req.verb, req.path);
    if k.Some? {
      StagesAdmit(k.value, req, svc, env.storedName, st.uploads);
      var route := Routes[k.value];
      var p := Run(route.stages, req, svc, env.storedName, Fresh, st.uploads);
      if p.Reached? {
        DispatchKeepsPasswords(route.handler, st.(uploads := p.uploads), svc, env, req, p.ctx);
      }
    }
  }

  /** Registering users is for admins only: any other valid token gets 403
      and nothing changes. */
  lemma RegisterNeedsAdmin(st: State, svc: Services, env: Env, req: Request)
    requires Consistent(env, st)
    requires req.verb == POST && req.path == ["register"]
    requires Credential(req.authorization, svc).Some? && !IsAdmin(Credential(req.authorization, svc).value)
    ensures Serve(st, svc, env, req) == Outcome(Say(Forbidden, "Access denied"), st)
  {
    ResolveFirst(Routes, POST, ["register"], 0);
  }

  /** Listing users is for admins only. */
  lemma ListNeedsAdmin(st: State, svc: Services, env: Env, req: Request)
    requires Consistent(env, st)
    requires req.verb == GET && req.path == []
    requires Credential(req.authorization, svc).Some? && !IsAdmin(Credential(req.authorization, svc).value)
    ensures Serve(st, svc, env, req) == Outcome(Say(Forbidden, "Access denied"), st)
  {
    ResolveFirst(Routes, GET, [], 2);
  }

  /** Logging in needs no token: the reply is loginUser's on the body and
      the login validators' messages, whatever the Authorization header. */
  lemma LoginNeedsNoToken(st: State, svc: Services, env: Env, req: Request)
    requires Consistent(env, st)
    requires req.verb == POST && req.path == ["login"]
    ensures Serve(st, svc, env, req) ==
              Outcome(Login(st, svc, env.usersNatural, req.body, Errors(LoginRules, req.body, svc)), st)
  {
    ResolveFirst(Routes, POST, ["login"], 1);
    var errors := Errors(LoginRules, req.body, svc);
    RunThrough(Validate(LoginRules), [], req, svc, env.storedName, Fresh, st.uploads);
    assert Routes[1].stages == [Validate(LoginRules)] + [];
    assert Fresh.errors + errors == errors;
    assert Run(Routes[1].stages, req, svc, env.storedName, Fresh, st.uploads) == Reached(Fresh.(errors := errors), st.uploads);
    ServeThrough(st, svc, env, req, 1, Fresh.(errors := errors), st.uploads);
    assert st.(uploads := st.uploads) == st;
  }

  /** A profile picture upload without a file is refused by compressImage. */
  lemma ProfileUploadNeedsImage(st: State, svc: Services, env: Env, req: Request)
    requires Consistent(env, st)
    requires req.verb == POST && req.path == ["upload-profile-pic"] && req.upload.None?
    requires Credential(req.authorization, svc).Some?
    ensures Serve(st, svc, env, req) == Outcome(Reply(BadRequest, Problem("Image is required")), st)
  {
    ResolveFirst(Routes, POST, ["upload-profile-pic"], 3);
    var authed := Fresh.(user := Credential(req.authorization, svc));
    assert Routes[3].stages == [AuthUser] + ([Receive("profile")] + [Compress]);
    RunThrough(AuthUser, [Receive("profile")] + [Compress], req, svc, env.storedName, Fresh, st.uploads);
    RunThrough(Receive("profile"), [Compress], req, svc, env.storedName, authed, st.uploads);
    RunThrough(Compress, [], req, svc, env.storedName, authed, st.uploads);
  }

  /** The update route's stages authenticate and record the validator's
      messages, and never answer for a signed-in caller. */
  lemma UpdateStagesAdmit(st: State, svc: Services, env: Env, req: Request)
    requires Credential(req.authorization, svc).Some?
    ensures Run(Routes[4].stages, req, svc, env.storedName, Fresh, st.uploads) ==
              Reached(Fresh.(user := Credential(req.authorization, svc), errors := Errors(UpdateRules, req.body, svc)), st.uploads)
  {
    var authed := Fresh.(user := Credential(req.authorization, svc));
    assert Routes[4].stages == [AuthUser] + [Validate(UpdateRules)];
    RunThrough(AuthUser, [Validate(UpdateRules)], req, svc, env.storedName, Fresh, st.uploads);
    RunThrough(Validate(UpdateRules), [], req, svc, env.storedName, authed, st.uploads);
    assert authed.errors + Errors(UpdateRules, req.body, svc) == Errors(UpdateRules, req.body, svc);
  }

  /** The update route declares "Name is required" but updateUser never
      reads the validation result: without a name the request still
      succeeds and the name stays as it was. */
  lemma UpdateNameNotEnforced(st: State, svc: Services, env: Env, req: Request)
    requires Consistent(env, st)
    requires req.verb == PUT && req.path == ["update"] && "name" !in req.body
    requires Credential(req.authorization, svc).Some? && Credential(req.authorization, svc).value.id in st.users
    requires env.saved
    ensures Errors(UpdateRules, req.body, svc) == ["Name is required"]
    ensures Serve(st, svc, env, req) == Outcome(Say(Ok, "User updated successfully"), st)
  {
    MissingNameFails(req.body, svc);
    ResolveFirst(Routes, PUT, ["update"], 4);
    UpdateStagesAdmit(st, svc, env, req);
    var caller := Credential(req.authorization, svc).value;
    ServeThrough(st, svc, env, req, 4, Fresh.(user := Some(caller), errors := ["Name is required"]), st.uploads);
    assert st.(uploads := st.uploads) == st;
    UpdateWithoutName(st, caller, req.body);
  }

  lemma MissingNameFails(body: Body, svc: Services)
    requires "name" !in body
    ensures Errors(UpdateRules, body, svc) == ["Name is required"]
  {
    assert !Passes(UpdateRules[0], body, svc);
    assert Errors(UpdateRules[1..], body, svc) == [];
  }

  lemma UpdateWithoutName(st: State, caller: Claims, body: Body)
    requires "name" !in body && caller.id in st.users
    ensures UpdateSelf(st, caller, body, true) == Outcome(Say(Ok, "User updated successfully"), st)
  {
    assert st.users[caller.id := st.users[caller.id].(name := st.users[caller.id].name)] == st.users;
  }

  /** The database-object version: the route's stages, then the controller
      method for its handler. */
  method HandleRequest(db: Db, svc: Services, env: Env, req: Request) returns (reply: Reply)
    requires db.Valid()
    requires Consistent(env, db.Model())
    modifies db
    ensures db.Valid()
    ensures Outcome(reply, db.Model()) == Serve(old(db.Model()), svc, env, req)
  {
    var k := Resolve(Routes, req.verb, req.path);
    if k.None? {
      return Reply(NotFound, NoRoute);
    }
    RoutesAreGuarded();
    var route := Routes[k.value];
    var progress := Run(route.stages, req, svc, env.storedName, Fresh, db.uploads);
    db.uploads := progress.uploads;
    if progress.Stopped? {
      return progress.reply;
    }
    var ctx := progress.ctx;
    match route.handler {
      case RegisterUser =>
        reply := UserController.RegisterUser(db, svc, env.usersNatural, req.body, ctx.errors, env.newId, env.saved);
      case LoginUser =>
        reply := Login(db.Model(), svc, env.usersNatural, req.body, ctx.errors);
      case GetUsers =>
        reply := ListUsers(db.Model(), env.usersSorted, req.query);
      case UploadProfilePicture =>
        reply := UserController.UploadProfilePicture(db, ctx.user.value, ctx.stored, env.saved);
      case UpdateUser =>
        reply := UserController.UpdateUser(db, ctx.user.value, req.body, env.saved);
      case GetCurrentUser =>
        reply := Me(db.Model(), ctx.user.value);
    }
  }
}

=== FILE: validation.dfy ===
/** The express-validator chains the routes declare, as predicates over the
    request body. A chain only records its message on failure; whether the
    request is refused is up to the handler (`validationResult(req)`). */
module Validation {
  import opened Common
  import opened Sequences

  datatype Check = NotEmpty | MinLength(n: nat) | IsEmail | IsIn(options: seq<string>)

  /** `check(field, message)` followed by one validator, with `.optional()`
      in front when `optional` is set. */
  datatype Rule = Rule(field: string, optional: bool, check: Check, message: string)

  predicate Accepts(check: Check, s: string, svc: Services) {
    match check
    case NotEmpty => s != ""
    case MinLength(n) => |s| >= n
    case IsEmail => svc.isEmail(s)
    case IsIn(options) => s in options
  }

  /** A missing field is validated as `""` unless the chain is optional; an
      array is validated item by item and must not be empty. */
  predicate Passes(rule: Rule, body: Body, svc: Services) {
    if rule.field !in body then rule.optional || Accepts(rule.check, "", svc)
    else
      match body[rule.field]
      case Str(s) => Accepts(rule.check, s, svc)
      case Arr(items) => |items| > 0 && forall i :: 0 <= i < |items| ==> Accepts(rule.check, items[i], svc)
  }

  /** `validationResult(req).array()`: the messages of the failing chains, in
      declaration order. */
  function Errors(rules: seq<Rule>, body: Body, svc: Services): (errs: seq<string>)
    ensures errs == [] <==> forall i :: 0 <= i < |rules| ==> Passes(rules[i], body, svc)
    ensures |errs| <= |rules|
    ensures forall m :: m in errs ==>
              exists i :: 0 <= i < |rules| && rules[i].message == m && !Passes(rules[i], body, svc)
    decreases |rules|
  {
    if rules == [] then []
    else
      var rest := Errors(rules[1..], body, svc);
      var here := if Passes(rules[0], body, svc) then [] else [rules[0].message];
      assert forall m :: m in rest ==>
               exists i :: 1 <= i < |rules| && rules[i].message == m && !Passes(rules[i], body, svc) by {
        forall m | m in rest
          ensures exists i :: 1 <= i < |rules| && rules[i].message == m && !Passes(rules[i], body, svc)
        {
          var j :| 0 <= j < |rules| - 1 && rules[1..][j].message == m && !Passes(rules[1..][j], body, svc);
          assert rules[j + 1] == rules[1..][j];
        }
      }
      here + rest
  }

  /** Message k of `errs` is the message of the failing chain `idx[k]`. */
  predicate FailingEntries(rules: seq<Rule>, body: Body, svc: Services, errs: seq<string>, idx: seq<int>) {
    && |idx| == |errs|
    && forall k :: 0 <= k < |idx| ==>
         0 <= idx[k] < |rules| && !Passes(rules[idx[k]], body, svc) && errs[k] == rules[idx[k]].message
  }

  /** Every failing chain of `rules` has its position in `idx`. */
  predicate CoversFailing(rules: seq<Rule>, body: Body, svc: Services, idx: seq<int>) {
    forall i :: 0 <= i < |rules| && !Passes(rules[i], body, svc) ==> i in idx
  }

  /** `idx` lists, increasing, the positions of all the failing chains of
      `rules`, and message k of `errs` is the message of chain `idx[k]`. */
  predicate FailingAt(rules: seq<Rule>, body: Body, svc: Services, errs: seq<string>, idx: seq<int>) {
    FailingEntries(rules, body, svc, errs, idx) && Increasing(idx) && CoversFailing(rules, body, svc, idx)
  }

  /** Failing positions of the tail, moved one place on, are the failing
      positions after the first chain. */
  lemma FailingAtTail(rules: seq<Rule>, body: Body, svc: Services, errs: seq<string>, idx: seq<int>)
    requires |rules| > 0 && FailingAt(rules[1..], body, svc, errs, idx)
    ensures forall k :: 0 <= k < |idx| ==>
              0 < Shift(idx)[k] < |rules| && !Passes(rules[Shift(idx)[k]], body, svc) &&
              errs[k] == rules[Shift(idx)[k]].message
    ensures forall i :: 1 <= i < |rules| && !Passes(rules[i], body, svc) ==> i in Shift(idx)
  {
    var tail, shifted := rules[1..], Shift(idx);
    assert forall i :: 1 <= i < |rules| ==> rules[i] == tail[i - 1];
    forall i | 1 <= i < |rules| && !Passes(rules[i], body, svc)
      ensures i in shifted
    {
      assert !Passes(tail[i - 1], body, svc);
      assert i - 1 in idx;
      var k :| 0 <= k < |idx| && idx[k] == i - 1;
      assert shifted[k] == i;
    }
  }

  /** When the first chain passes, the shifted positions are all of them. */
  lemma FailingAtSkip(rules: seq<Rule>, body: Body, svc: Services, errs: seq<string>, idx: seq<int>)
    requires |rules| > 0 && FailingAt(rules[1..], body, svc, errs, idx)
    requires Passes(rules[0], body, svc)
    ensures FailingAt(rules, body, svc, errs, Shift(idx))
  {
    FailingAtTail(rules, body, svc, errs, idx);
  }

  lemma FailingAtConsEntries(rules: seq<Rule>, body: Body, svc: Services, errs: seq<string>, idx: seq<int>)
    requires |rules| > 0 && FailingAt(rules[1..], body, svc, errs, idx)
    requires !Passes(rules[0], body, svc)
    ensures FailingEntries(rules, body, svc, [rules[0].message] + errs, [0] + Shift(idx))
  {
    FailingAtTail(rules, body, svc, errs, idx);
    var shifted := Shift(idx);
    var all, msgs := [0] + shifted, [rules[0].message] + errs;
    forall k | 0 <= k < |all|
      ensures 0 <= all[k] < |rules| && !Passes(rules[all[k]], body, svc) && msgs[k] == rules[all[k]].message
    {
      if k > 0 {
        assert all[k] == shifted[k - 1] && msgs[k] == errs[k - 1];
      }
    }
  }

  lemma ConsIncreasing(idx: seq<int>)
    requires Increasing(idx) && forall k :: 0 <= k < |idx| ==> 0 <= idx[k]
    ensures Increasing([0] + Shift(idx))
  {
    var shifted := Shift(idx);
    var all := [0] + shifted;
    forall k, l | 0 <= k < l < |all|
      ensures all[k] < all[l]
    {
      assert all[l] == shifted[l - 1] && shifted[l - 1] == idx[l - 1] + 1;
      if k > 0 {
        assert all[k] == shifted[k - 1] && shifted[k - 1] == idx[k - 1] + 1;
      }
    }
  }

  lemma FailingAtConsCovers(rules: seq<Rule>, body: Body, svc: Services, errs: seq<string>, idx: seq<int>)
    requires |rules| > 0 && FailingAt(rules[1..], body, svc, errs, idx)
    ensures CoversFailing(rules, body, svc, [0] + Shift(idx))
  {
    FailingAtTail(rules, body, svc, errs, idx);
    var shifted := Shift(idx);
    forall i | 0 <= i < |rules| && !Passes(rules[i], body, svc)
      ensures i in [0] + shifted
    {
      if i > 0 {
        assert i in shifted;
      }
    }
  }

  /** When the first chain fails, its message comes first. */
  lemma FailingAtCons(rules: seq<Rule>, body: Body, svc: Services, errs: seq<string>, idx: seq<int>)
    requires |rules| > 0 && FailingAt(rules[1..], body, svc, errs, idx)
    requires !Passes(rules[0], body, svc)
    ensures FailingAt(rules, body, svc, [rules[0].message] + errs, [0] + Shift(idx))
  {
    FailingAtConsEntries(rules, body, svc, errs, idx);
    ConsIncreasing(idx);
    FailingAtConsCovers(rules, body, svc, errs, idx);
  }

  /** The messages are exactly those of the failing chains, one each, in
      declaration order. */
  lemma {:induction false} ErrorsInOrder(rules: seq<Rule>, body: Body, svc: Services) returns (idx: seq<int>)
    ensures FailingAt(rules, body, svc, Errors(rules, body, svc), idx)
    decreases |rules|
  {
    if rules == [] {
      idx := [];
    } else {
      var rest := ErrorsInOrder(rules[1..], body, svc);
      if Passes(rules[0], body, svc) {
        FailingAtSkip(rules, body, svc, Errors(rules[1..], body, svc), rest);
        idx := Shift(rest);
      } else {
        FailingAtCons(rules, body, svc, Errors(rules[1..], body, svc), rest);
        idx := [0] + Shift(rest);
      }
    }
  }

  /** No failing chain is dropped: each one's message is in the reply. */
  lemma ErrorsComplete(rules: seq<Rule>, body: Body, svc: Services)
    ensures forall i :: 0 <= i < |rules| && !Passes(rules[i], body, svc) ==> rules[i].message in Errors(rules, body, svc)
  {
    var errs := Errors(rules, body, svc);
    var idx := ErrorsInOrder(rules, body, svc);
    forall i | 0 <= i < |rules| && !Passes(rules[i], body, svc)
      ensures rules[i].message in errs
    {
      var k :| 0 <= k < |idx| && idx[k] == i;
      assert errs[k] == rules[i].message;
    }
  }
}
